=== FILE: README.md ===
# FatturaPA passive-invoice app: the pure logic, modelled in Dafny

This project models the pure logic of a SAPUI5 front end for incoming
electronic invoices in the Italian FatturaPA format. Five pieces of logic
are modelled as functions over a small JSON datatype. Each piece is written
inside an event handler of a controller.

- **Invoice document reconciler** (`Dettaglio.controller.js`), module `Reconcile`.
  - After `JSON.parse`, a single `DettaglioLinee` (block 2.2.1) is wrapped into a one-element list.
  - The lines are then enriched with purchase-order data from `DatiOrdineAcquisto` (block 2.1.2), under one of two policies:
    - per line: the first reference whose `RiferimentoNumeroLinea` reads like the line's `NumeroLinea`;
    - global: the first reference stamps every line.
- **Invoice total** (same file), module `Totals`.
  - The probe over the aliased line containers.
  - The total: the sum of the line amounts, or the invoice-level `Totale`.
- **JSON-to-XML printer** (`Home.controller.js`, `_jsonToPrettyXml`), module `PrettyXml`.
  - Escaping with the five predefined entities of section 4.6 of XML 1.0 (Fifth Edition).
  - Two-space indentation per level.
  - Arrays printed as repeated sibling tags.
  - Attributes taken from `$`.
  - The root `@versione` hoisted into an attribute.
- **Invoice list** (`Home.controller.js`), module `InvoiceList`:
  - the status counters;
  - the toolbar flags driven by the selection;
  - removal of rows by id;
  - the OData string-literal quoter;
  - the colour mappings;
  - the paging bookkeeping of the list binding;
  - the block-reason check.
- **Value-help dialogs** (`helpers/ValueHelpHandler.js`), module `ValueHelp`:
  - which columns a search filters on;
  - how the search text is chosen;
  - which rows are selected again after a reload.

The module `Js` (in `json.dfy`) holds the JavaScript semantics the
controllers rely on. They are stated once and used everywhere.

- **Values.** A parsed JSON value has objects as ordered entry lists. A number is carried as its `String(n)` text. `undefined` is `None`.
- **Truthiness.** `0`, `NaN`, `""`, `null` and `false` are falsy.
- **Property reads.**
  - With `?.`, an absent value gives `undefined`.
  - Without `?.`, reading from `null` or `undefined` throws; this is modelled as a `Fault`.
- **Strict-mode property writes.** Writing a property of `null` or of a primitive throws.
- **`String(v)` and `Array.prototype.join`.**
- **`String.prototype.trim`.** Modelled with the ECMAScript white-space and line-terminator set.
- **`replace` with a global pattern.**

## Model

| member | source | states |
|---|---|---|
| Js.Update | webapp/controller/Dettaglio.controller.js:129-130 | Assigning `obj[k] = x` leaves `k` reading `x` and every other key reading as before. An existing key keeps its place; a new key is appended last. |
| Js.Trim | webapp/controller/Home.controller.js:2282 | `trim()` answers the middle slice of the text: nothing but white space is cut on either side, and both ends of the answer are non-space. The answer is empty exactly when the text is all white space. |
| Reconcile.NormaliseLines | webapp/controller/Dettaglio.controller.js:87-95 | A truthy non-array `DettaglioLinee` becomes a one-element list holding it. An array, or a falsy or absent value, is left as it is. Nothing outside that path changes. A `null` document throws at the unguarded `oFattura.FatturaElettronicaBody`. |
| Reconcile.NormaliseIdempotent | webapp/controller/Dettaglio.controller.js:91-95 | Normalising an already normalised document changes nothing. |
| Reconcile.FindOrder | webapp/controller/Dettaglio.controller.js:124-126 | `find` answers a match that comes before any other match and any `null`. It answers `undefined` exactly when every reference is read and none matches. |
| Reconcile.FindOrderFirst | webapp/controller/Dettaglio.controller.js:124-126 | From the start of the list, `find` answers reference `j` exactly when `j` is the first match in list order; later matches are ignored. |
| Reconcile.FindOrderFailure | webapp/controller/Dettaglio.controller.js:124-126 | The search throws exactly when a `null` reference comes before every match, since its `RiferimentoNumeroLinea` cannot be read. |
| Reconcile.PerLineOne | webapp/controller/Dettaglio.controller.js:123-133 | An object line whose first match is truthy gets `odaIdDocumento` and `odaDataDoc` from it, each defaulting to `""`. Every other field, `odaPosOda` included, is unchanged. A line with no match, or whose first match is falsy, is untouched. States exactly when the iteration throws. |
| Reconcile.GlobalOne | webapp/controller/Dettaglio.controller.js:137-142 | An object line gets `odaIdDocumento`, `odaDataDoc` and `odaPosOda` from the first reference, each defaulting to `""`; nothing else changes. Writing to a `null` or primitive line throws. |
| Reconcile.MapAll | webapp/controller/Dettaglio.controller.js:123 | `forEach` rewrites every line in order. It succeeds exactly when every line does, and otherwise stops with the first line's error. |
| Reconcile.ReconcileLines | webapp/controller/Dettaglio.controller.js:113-142 | The policy is read from the first reference alone. An empty list, or one starting with `null`, throws. Both policies keep the number of lines and leave array lines alone. Per line, each object line is stamped from its first truthy match, and a line without a truthy first match is untouched. Globally, every object line is stamped from the first reference. |
| Reconcile.Enrich | webapp/controller/Dettaglio.controller.js:113-119 | The reconciled lines are written back in place: a list stays a list, and a single object is rewritten where it stands. Nothing outside `DettaglioLinee` changes. |
| Reconcile.MapOrdineAcquistoAsWritten | webapp/controller/Dettaglio.controller.js:104-143 | The code as written is a no-op when either block is falsy, and it throws when the reference list is an empty array. Otherwise it is `Enrich`: the lines are stamped as `ReconcileLines` states and written back in place. |
| Reconcile.MapOrdineAcquisto | webapp/controller/Dettaglio.controller.js:104-143 | The corrected reconciler: a no-op when either block is falsy or the reference list is empty. It agrees with the code as written everywhere else, and changes nothing outside `DettaglioLinee`. |
| Reconcile.EmptyOrdersFinding | webapp/controller/Dettaglio.controller.js:111-122 | On an empty reference list with lines present, the code as written throws where the corrected reconciler answers the document unchanged. |
| Reconcile.EmptyOrdersExample | webapp/controller/Dettaglio.controller.js:122 | A concrete one-line document with `DatiOrdineAcquisto: []` on which the code as written throws. |
| Reconcile.WellShapedNeverThrows | webapp/controller/Dettaglio.controller.js:104-143 | When every line and every reference is an object, the corrected reconciler never throws. The code as written never throws either, unless the reference list is empty. |
| Reconcile.BindFatturaData | webapp/controller/Dettaglio.controller.js:87-97 | `_bindFatturaData` with the reconciler as written. Every truthy `DettaglioLinee` ends up a list, and nothing outside it changes. It succeeds on every non-null well-shaped document whose reference list is not empty. With an empty reference list and lines present, it throws. The enrichment the lines receive is the one `ReconcileLines` states. |
| Reconcile.BindFatturaDataCorrected | webapp/controller/Dettaglio.controller.js:87-97 | The same treatment with the corrected reconciler. It succeeds on every non-null well-shaped document, and agrees with the code as written unless the reference list is empty. |
| Reconcile.NormalisedShape | webapp/controller/Dettaglio.controller.js:87-97 | Normalising keeps the reference block. On a well-shaped document the reconcilers that follow behave as the two lemmas above state. |
| Totals.Probe | webapp/controller/Dettaglio.controller.js:163-168 | The `\|\|` chain answers the first alias whose value is truthy, or nothing when none is. |
| Totals.GetInvoiceLines | webapp/controller/Dettaglio.controller.js:162-172 | The lines are the first truthy alias's value as a list, or `[]` when no alias is truthy. Aliases are never merged. |
| Totals.EmptyItemsShadowAliases | webapp/controller/Dettaglio.controller.js:162-172 | An empty `items` array is truthy: it hides every later alias, and the total falls back to the invoice's `Totale`. |
| Totals.ReplaceFirstComma | webapp/controller/Dettaglio.controller.js:154 | `replace(",", ".")` with a string pattern changes only the first comma, and nothing when there is none. |
| Totals.LocaleDecimalText | webapp/controller/Dettaglio.controller.js:154 | The Italian amount "10,50" reaches `parseFloat` as "10.50". |
| Totals.ReduceIsSum | webapp/controller/Dettaglio.controller.js:153-156 | The front-to-back `reduce` from a start value is the start value plus the sum of the line amounts. |
| Totals.SumAppend | webapp/controller/Dettaglio.controller.js:153-156 | The `reduce` over two runs of lines is the sum of the two sums. |
| Totals.UnparseableAddsNothing | webapp/controller/Dettaglio.controller.js:154 | A line whose amount does not parse (`NaN \|\| 0`) adds nothing to the total, wherever it stands. |
| Totals.UpdateTotal | webapp/controller/Dettaglio.controller.js:146-160 | The total is the sum of the line amounts when the first truthy alias yields lines. It is the invoice's `Totale` when there are no lines, and `parseFloat("0")` for a missing invoice. |
| PrettyXml.EscapeRef | webapp/controller/Home.controller.js:979-984 | The per-character escape yields text with none of `<>"'`, in which every `&` begins one of the five entities. |
| PrettyXml.EscapeXml | webapp/controller/Home.controller.js:979-984 | `escapeXml` equals the per-character escape. Its result holds none of `<>"'`, every `&` in it begins one of the five entities, and reading the entities back gives the original text. |
| PrettyXml.EscapePassesArePerChar | webapp/controller/Home.controller.js:979-984 | The five global replacements, `&` first, amount to replacing each character by its entity independently, so nothing is escaped twice. |
| PrettyXml.UnescapeEscapeRef | webapp/controller/Home.controller.js:979-984 | Reading the entities back yields the original text, so every other character passes through in order. |
| PrettyXml.EscapedIsEscapeRef | webapp/controller/Home.controller.js:979-984 | Text with no markup delimiter and an entity at every `&` is the escape of what it reads back as. So the escape is the only such text for a given reading. |
| PrettyXml.Indent | webapp/controller/Home.controller.js:986 | The indentation of level `n` is `2n` characters, every one of them a space. |
| PrettyXml.NatStrInjective | webapp/controller/Home.controller.js:995 | Two different array indices never have the same decimal key. |
| PrettyXml.OwnEntries | webapp/controller/Home.controller.js:993-996 | `Object.keys` of an object lists its entries in order. An array lists one key per index and a string one key per character. These keys are all distinct, and reading key `i` gives element `i` (or character `i`). Such keys hold none of `<`, `>` or `"`. A number, a boolean or `null` lists nothing. |
| PrettyXml.AttrText | webapp/controller/Home.controller.js:993-996 | A falsy `$` gives no attributes. A truthy one gives a space, then one `key="text"` pair per key of `Object.keys($)`, in key order, joined by single spaces. Each text is safe (no markup delimiter, an entity at every `&`) and reads back as `String` of the key's value, so it stays inside its own quotes. When no key holds `<`, `>` or `"`, the whole text holds no angle bracket and exactly two quotes per key. |
| PrettyXml.NodeToXmlShape | webapp/controller/Home.controller.js:988-1005 | An array prints as its items' elements one after the other, each under the same name and at the same level. Every other value prints as one element of that name at that level. |
| PrettyXml.ElementShape | webapp/controller/Home.controller.js:988-1005 | Every value but an array prints as one element: the level's indentation, `<name`, and a closing `>` and newline. |
| PrettyXml.LeafShape | webapp/controller/Home.controller.js:989-991 | `null` prints exactly `indent<name/>` and a newline. Any other scalar prints an opening and a closing tag with text between them, on one line. That text holds no markup delimiter, has an entity at every `&`, and reads back as `String(value)`; by `EscapedIsEscapeRef` this makes it the escape of `String(value)`. |
| PrettyXml.ObjectShape | webapp/controller/Home.controller.js:993-1004 | An object prints as one self-closing element exactly when `$` is its only key. Otherwise it prints the opening tag, then the children of every key but `$`, then the closing tag at its own indentation. |
| PrettyXml.RepeatIsSiblings | webapp/controller/Home.controller.js:990 | An array prints as the concatenation of its items, each under the same name and at the same level. |
| PrettyXml.DollarIsNotAChild | webapp/controller/Home.controller.js:998-1002 | The `$` entries never print as children: the children are those of the object without `$`, in key order. |
| PrettyXml.WithoutKey | webapp/controller/Home.controller.js:1008-1009 | `delete payload["@versione"]` removes the key and leaves every other key reading as before. |
| PrettyXml.AssignFresh | webapp/controller/Home.controller.js:1013 | Assigning keys that the root does not hold yet appends them in order. |
| PrettyXml.Root | webapp/controller/Home.controller.js:1007-1013 | The root is always an object. Reading `@versione` of a `null` document throws. |
| PrettyXml.AssignAllLookup | webapp/controller/Home.controller.js:1013 | After the assignment loop, a key reads the payload's value when the payload has it, and the root's earlier value otherwise. |
| PrettyXml.RootLookup | webapp/controller/Home.controller.js:1007-1013 | For an object document with distinct keys, the root has no `@versione`. Its `$` is the document's own `$` when there is one, since the assignment overwrites `{ versione }`. Otherwise `$` is `{ versione }` when `@versione` is truthy, and absent when it is not. Every other key reads as in the document. |
| PrettyXml.RootHoistsVersion | webapp/controller/Home.controller.js:1007-1013 | The root of an object document is a leading `$: { versione }` when `@versione` is truthy, followed by every other key in its order, and `@versione` itself is gone. |
| PrettyXml.TrimIsIdentity | webapp/controller/Home.controller.js:1015 | The root element starts with `<FatturaElettronica` and ends with `>` and a newline, so `trim()` plus `"\n"` gives it back unchanged. The output ends in exactly one newline. |
| PrettyXml.JsonToPrettyXml | webapp/controller/Home.controller.js:978-1015 | Only a `null` document throws. Every other document prints as exactly the `FatturaElettronica` element of its root, which opens with `<FatturaElettronica` and ends with `>` and one newline. |
| PrettyXml.TrimElement | webapp/controller/Home.controller.js:1015 | Trimming text that starts with `<` and ends with `>` and a newline drops only the newline. |
| InvoiceList.UpdateCounts | webapp/controller/Home.controller.js:333-361 | `All` is the row count. The four status counters count rows whose `StatoFattura` is exactly `"0"`, `"1"`, `"2"` or `"3"`. `Error` stays 0. |
| InvoiceList.CountersPartition | webapp/controller/Home.controller.js:345-358 | The four status counters add up to at most `All`, and to exactly `All` when every status is one of the four. |
| InvoiceList.SelectedRows | webapp/controller/Home.controller.js:1750-1753 | The result is never longer than the selection. When every index has a context, row `i` is the object of context `i`, or `{}` when it has none. |
| InvoiceList.SelectedRowsAppend | webapp/controller/Home.controller.js:1750-1753 | The `map`/`filter`/`map` chain works element by element: the rows of two runs of indices are the rows of each, in order. |
| InvoiceList.AbsentContributesNothing | webapp/controller/Home.controller.js:1751-1752 | An index without a context adds no row, wherever it stands. |
| InvoiceList.SelectionFlags | webapp/controller/Home.controller.js:1755-1766 | Archiving is enabled exactly when at least one row is selected and every selected row has `Archiviato === true`. |
| InvoiceList.SingleRowActions | webapp/controller/Home.controller.js:1755-1766 | Reversal, blocking, the posting apps and company assignment each need exactly one row. Reversal and blocking never both apply. For one row: reversal means status `"3"`, the posting apps status `"1"`, and blocking a truthy status other than `"3"`. Company assignment is enabled exactly when the row has no truthy `CompanyCode`. |
| InvoiceList.StornoOrBlocca | webapp/controller/Home.controller.js:1758-1760 | For a single row with a truthy status, exactly one of reversal and blocking is enabled. |
| InvoiceList.RemoveRowsByIds | webapp/controller/Home.controller.js:1853-1856 | No remaining row has an id among the stringified truthy ids. |
| InvoiceList.Keep | webapp/controller/Home.controller.js:1856 | `filter` keeps no row whose key is asked for. It keeps only rows of the list, and it keeps every row whose key is not asked for. |
| InvoiceList.KeptPositions | webapp/controller/Home.controller.js:1856 | The positions of the kept rows are increasing, and every row whose id is not asked for is among them. |
| InvoiceList.RemoveIsSubsequence | webapp/controller/Home.controller.js:1856 | The remaining rows are exactly the rows at the kept positions, in order: a subsequence that misses only rows whose id was asked for. |
| InvoiceList.RemoveIdempotent | webapp/controller/Home.controller.js:1853-1856 | Removing the same ids twice is removing them once. |
| InvoiceList.RemoveLowersCounts | webapp/controller/Home.controller.js:1856-1859 | Removal never raises a status counter. |
| InvoiceList.OdataStr | webapp/controller/Home.controller.js:2281-2283 | The literal body doubles every quote. Undoubling it gives back the trimmed text of the value, or `""` for `null` and `undefined`. |
| InvoiceList.DoubleQuotes | webapp/controller/Home.controller.js:2282 | Doubling every `'` yields a well-formed literal body and loses nothing. |
| InvoiceList.GetHighlight | webapp/controller/Home.controller.js:82-93 | Only a one-letter code gets a colour. |
| InvoiceList.HighlightInverse | webapp/controller/Home.controller.js:82-93 | `G`, `Y` and `R` are exactly the codes with a colour, one colour each. Every other value is `None`. |
| InvoiceList.StatusState | webapp/controller/Home.controller.js:826-834 | A falsy outcome is `None`. A truthy non-string throws, since it has no `toLowerCase`. |
| InvoiceList.StatusStateIgnoresCase | webapp/controller/Home.controller.js:828 | An outcome text and its lower-case form get the same colour. |
| InvoiceList.StatusOfText | webapp/controller/Home.controller.js:826-834 | A string never throws. Its lower-case form decides: "processato" gives success; otherwise "errore" gives an error; otherwise "da processare" gives a warning; otherwise there is no colour. Each outcome holds exactly under its condition. |
| InvoiceList.ProcessedWins | webapp/controller/Home.controller.js:830-832 | Any outcome mentioning "processato", in any case, is a success, whatever else it mentions. |
| InvoiceList.Bind | webapp/controller/Home.controller.js:284-292 | A reset empties the list and rewinds `$skip`. A read is sent exactly when more rows may exist and none is in flight, with the current `$top` and `$skip`. |
| InvoiceList.OnPage | webapp/controller/Home.controller.js:303-314 | The page is appended (an absent page counts as empty) and nothing is in flight any more. More pages are expected exactly after a full page. |
| InvoiceList.OnError | webapp/controller/Home.controller.js:322-324 | A failed read stops the paging and leaves the list as it was. |
| InvoiceList.PagingInStep | webapp/controller/Home.controller.js:57-62 | `$skip` always equals the number of rows shown, so each read asks for the rows right after them, with no gap and no overlap. |
| InvoiceList.ShortPageEndsPaging | webapp/controller/Home.controller.js:313-324 | After a short page or an error, only a reset sends another read. |
| InvoiceList.PageCounts | webapp/controller/Home.controller.js:309-310 | The counters after a page are the old counters plus those of the page. |
| InvoiceList.ValidateBlockReason | webapp/controller/Home.controller.js:1117-1132 | A blank text is refused as missing. A text over 60 characters before trimming is refused as too long. Otherwise the trimmed text is saved: non-empty, at most 60 characters, with no white space at either end. |
| InvoiceList.ConfirmMatchesValidation | webapp/controller/Home.controller.js:1104-1108 | The confirm button is enabled exactly when the handler would not refuse the text as blank. |
| ValueHelp.Without | webapp/controller/helpers/ValueHelpHandler.js:20 | `filter(p => p !== k)` keeps exactly the properties other than `k`. |
| ValueHelp.WithoutAppend | webapp/controller/helpers/ValueHelpHandler.js:20 | `filter` works element by element: filtering two runs of properties is filtering each, in order. |
| ValueHelp.WithoutKeeps | webapp/controller/helpers/ValueHelpHandler.js:20 | A single property is dropped exactly when it is `k`, and a list without `k` is kept whole, in order. |
| ValueHelp.FilterProps | webapp/controller/helpers/ValueHelpHandler.js:18-21 | The key column is dropped only when `maxKeyLength` is set, the untrimmed query is longer, and `keyProp` is set. Otherwise the properties are unchanged. |
| ValueHelp.ApplyFilter | webapp/controller/helpers/ValueHelpHandler.js:23-34 | A blank query clears the filter. Otherwise there is one `Contains` on the untrimmed query per remaining column, in order, combined into a single OR group. The filter is also cleared when no column is left. |
| ValueHelp.ContainsAll | webapp/controller/helpers/ValueHelpHandler.js:25 | One `Contains` filter per column, in column order. |
| ValueHelp.KeyColumnFits | webapp/controller/helpers/ValueHelpHandler.js:18-26 | With both options set, the key column is never searched for a text longer than it can hold. |
| ValueHelp.FirstFilled | webapp/controller/helpers/ValueHelpHandler.js:129-130 | `find(Boolean)` answers the first field whose trimmed value is non-empty; the fields before it are blank or missing. |
| ValueHelp.SearchQuery | webapp/controller/helpers/ValueHelpHandler.js:127-130 | The query is the trimmed basic search when non-empty. Otherwise it is the trimmed value of the first filled field, or `""`. |
| ValueHelp.SearchQueryFilters | webapp/controller/helpers/ValueHelpHandler.js:127-130 | The chosen query has no surrounding white space, and a non-empty one always filters while a column is left. |
| ValueHelp.ReselectRows | webapp/controller/helpers/ValueHelpHandler.js:48-60 | The reselected indices are exactly those whose object is truthy and whose key property is one of the token keys, in increasing order. |

## Left out

- **I/O and UI.** OData reads and updates, dialogs, `Fragment.load`, the event bus, `BusyIndicator` and message toasts are not modelled. The models read by the handlers become parameters, and the handlers' effects become return values.
- **`parseFloat`** is the caller-supplied parameter `parse`, which answers cents or `None` for NaN. Floating-point addition is modelled as integer addition. `formatCurrency`, `toFixed` and `_calculateTotals` are not modelled.
- **`Object.keys` order.** The model lists keys in insertion order. JavaScript lists integer-like keys first, in ascending order. FatturaPA element names are never integer-like, so the model keeps insertion order.
- **Duplicate keys.** `JSON.parse` keeps the last of duplicate keys. The model's objects are entry lists, and a lookup reads the first entry with a key. `RootHoistsVersion` and `RootLookup` assume distinct keys, as `JSON.parse` produces.
- PrettyXml.RootHoistsVersion: states the root's exact entry list only for a document without its own `$` key. For a document with one, the assignment overwrites `{ versione }` in place; `RootLookup` states what every key of that root reads, but not its entry order.
- Reconcile.PerLineOne: a line that is an array is left unchanged. In JavaScript the assignment adds a named property to the array, which `JSON.stringify` drops and which the JSON tree of the model cannot hold.
- Reconcile.GlobalOne: an array line is left unchanged, for the same reason as in `PerLineOne`.
- Reconcile.ReconcileLines: array lines are left unchanged, for the same reason as in `PerLineOne`.
- ValueHelp.FilterProps: the query length is counted in characters, where JavaScript's `length` counts UTF-16 code units. The two differ only for characters outside the Basic Multilingual Plane.
- ValueHelp.KeyColumnFits: the length bound is stated in characters, for the same reason as in `FilterProps`.
- **Text length.** The 60-character block-reason limit counts UTF-16 code units in JavaScript and characters in the model. They differ only for characters outside the Basic Multilingual Plane.
- InvoiceList.StatusState: lower-casing is modelled for A-Z only. The three searched words are plain ASCII, and the non-ASCII characters whose lower-case form is ASCII (U+0130, U+212A) cannot complete any of them except by an unusual spelling.
- **Fields the reset leaves alone.** A reset in `_bindTable` leaves the counters and an in-flight read untouched, and the model does the same. The reply to a read sent before the reset still lands on the emptied list, and the model does not track that ordering.
- **`setTimeout` re-paging** after a full page is not modelled as a timer. `ShortPageEndsPaging` and `Bind` state when another read is sent.
- **`_reselectRows`** assumes the table has `addSelectionInterval`, as `sap.ui.table.Table` does. The `sap.m.Table` branch does nothing in the source either.
- **`/results` absent** in the list model is modelled as the empty list.
- **Throwing reconciler.** A caller might expect the reconciler never to throw. The code reads `aOrdini[0]` and each reference's field without guards, and the model follows the code. `WellShapedNeverThrows` gives the condition under which it does not throw. The empty-list case is the finding below.
- **`oOptions?.onAfterUpdate`** and the data-received re-selection hook are event wiring and are not modelled.
- **Cross-application navigation, attachments and archiving.**
  - `BaseController.js` is not part of this model.
  - The navigation handlers, Base64 attachments and the archive fan-out are foreign runtime calls or async sequencing.
- **Date-based filter ranges** are not part of this model.
- **The unit-test bootstrap** (`webapp/test/unit/unitTests.qunit.js`) runs no logic and is not modelled.

## Findings

| source | as written | input that shows it | evidently intended | confidence | as-written member | corrected member |
|---|---|---|---|---|---|---|
| webapp/controller/Dettaglio.controller.js:111-122 | The guard `!oGenerali?.DatiOrdineAcquisto` lets an empty array through, since `[]` is truthy. `aOrdini[0].RiferimentoNumeroLinea` then reads a property of `undefined` and throws a TypeError. | `{"FatturaElettronicaBody": {"DatiGenerali": {"DatiOrdineAcquisto": []}, "DatiBeniServizi": {"DettaglioLinee": [{"NumeroLinea": "1"}]}}}` | No purchase-order data means no enrichment: return early, as for an absent block. | not executed | Reconcile.MapOrdineAcquistoAsWritten (exhibited by Reconcile.EmptyOrdersFinding and Reconcile.EmptyOrdersExample) | Reconcile.MapOrdineAcquisto (used by Reconcile.BindFatturaDataCorrected) |

=== FILE: json.dfy ===
/**
 * The two ways a controller's computation can end short of a plain value.
 * `Option` stands for a JavaScript value that may be `undefined`; `Result`
 * stands for a computation that may raise a JavaScript exception.
 */
module Wrappers {

  datatype Option<+T> = None | Some(value: T) {

    /** The wrapped value, or `default` when there is none. */
    function GetOr(default: T): T {
      match this
      case Some(v) => v
      case None => default
    }
  }

  datatype Result<+R, +E> = Success(value: R) | Failure(error: E) {

    predicate IsFailure() {
      Failure?
    }

    function PropagateFailure<U>(): Result<U, E>
      requires Failure?
    {
      Failure(error)
    }

    function Extract(): R
      requires Success?
    {
      value
    }
  }
}

/**
 * The JavaScript values the controllers work on: the result of `JSON.parse`
 * and the plain objects of the OData list rows. Object entries keep their
 * insertion order, which is the order `Object.keys` reports for the
 * non-numeric keys that FatturaPA and the OData service use.
 */
module Js {
  import opened Wrappers

  /** A number is kept as the text `String(n)` renders it as; the model never does arithmetic on it. */
  datatype Json =
    | JNull
    | JBool(b: bool)
    | JNum(repr: string)
    | JStr(s: string)
    | JArr(items: seq<Json>)
    | JObj(entries: seq<Entry>)

  datatype Entry = Entry(key: string, value: Json)

  /** The TypeErrors the engine raises in strict mode for the accesses and calls the controllers make. */
  datatype Fault =
    | ReadOfNull(prop: string)
    | ReadOfUndefined(prop: string)
    | WriteToNull(prop: string)
    | WriteToPrimitive(prop: string)
    | NotAFunction(name: string)

  /** JavaScript truthiness; `None` is `undefined`. `String(-0)` is "0", so "0" covers both zeros. */
  predicate Truthy(v: Option<Json>) {
    match v
    case None => false
    case Some(JNull) => false
    case Some(JBool(b)) => b
    case Some(JNum(r)) => r != "0" && r != "NaN"
    case Some(JStr(s)) => s != ""
    case Some(JArr(_)) => true
    case Some(JObj(_)) => true
  }

  /** Whether some entry has key `k`. */
  predicate HasKey(es: seq<Entry>, k: string) {
    exists i :: 0 <= i < |es| && es[i].key == k
  }

  /** `obj[k]` on an object: the first entry with key `k`, `undefined` when there is none. */
  function Lookup(es: seq<Entry>, k: string): (r: Option<Json>)
    ensures r.Some? <==> HasKey(es, k)
    ensures r.Some? ==> Entry(k, r.value) in es
  {
    if es == [] then None
    else if es[0].key == k then Some(es[0].value)
    else Lookup(es[1..], k)
  }

  /**
   * `v?.k`: a property of an object; `undefined` for `undefined`, `null`,
   * arrays and primitives (none of the property names the controllers read
   * is a built-in property of an array or a string).
   */
  function Member(v: Option<Json>, k: string): (r: Option<Json>)
    ensures r.Some? ==> v.Some? && v.value.JObj? && HasKey(v.value.entries, k)
  {
    match v
    case Some(JObj(es)) => Lookup(es, k)
    case _ => None
  }

  /** `v.k` without optional chaining: reading a property of `null` or `undefined` throws. */
  function Read(v: Option<Json>, k: string): (r: Result<Option<Json>, Fault>)
    ensures r.Failure? <==> v.None? || v == Some(JNull)
    ensures r.Success? ==> r.value == Member(v, k)
  {
    match v
    case None => Failure(ReadOfUndefined(k))
    case Some(JNull) => Failure(ReadOfNull(k))
    case _ => Success(Member(v, k))
  }

  /** `v || d`. */
  function Or(v: Option<Json>, d: Json): (r: Json)
    ensures Truthy(v) ==> Some(r) == v
    ensures !Truthy(v) ==> r == d
  {
    if Truthy(v) then v.value else d
  }

  /**
   * `obj[k] = x`: an existing key keeps its position and takes the new value,
   * a new key is appended.
   */
  function Update(es: seq<Entry>, k: string, x: Json): (r: seq<Entry>)
    ensures Lookup(r, k) == Some(x)
    ensures forall j :: j != k ==> Lookup(r, j) == Lookup(es, j)
    ensures HasKey(es, k) ==> |r| == |es| && forall i :: 0 <= i < |es| ==> r[i].key == es[i].key
    ensures !HasKey(es, k) ==> r == es + [Entry(k, x)]
  {
    PutLookup(es, k, x);
    PutKeys(es, k, x);
    PutFresh(es, k, x);
    Put(es, k, x)
  }

  /** The assignment itself: the first entry with key `k` takes `x`, or `Entry(k, x)` is appended. */
  function Put(es: seq<Entry>, k: string, x: Json): seq<Entry> {
    if es == [] then [Entry(k, x)]
    else if es[0].key == k then [Entry(k, x)] + es[1..]
    else [es[0]] + Put(es[1..], k, x)
  }

  lemma {:induction false} PutLookup(es: seq<Entry>, k: string, x: Json)
    ensures Lookup(Put(es, k, x), k) == Some(x)
    ensures forall j :: j != k ==> Lookup(Put(es, k, x), j) == Lookup(es, j)
    decreases |es|
  {
    var r := Put(es, k, x);
    if es != [] {
      assert r[1..] == if es[0].key == k then es[1..] else Put(es[1..], k, x);
      if es[0].key != k {
        PutLookup(es[1..], k, x);
      }
    }
  }

  lemma {:induction false} PutKeys(es: seq<Entry>, k: string, x: Json)
    ensures HasKey(es, k) ==> |Put(es, k, x)| == |es| && forall i :: 0 <= i < |es| ==> Put(es, k, x)[i].key == es[i].key
    decreases |es|
  {
    if es != [] && es[0].key != k {
      HasKeyTail(es, k);
      PutKeys(es[1..], k, x);
    }
  }

  lemma {:induction false} PutFresh(es: seq<Entry>, k: string, x: Json)
    ensures !HasKey(es, k) ==> Put(es, k, x) == es + [Entry(k, x)]
    decreases |es|
  {
    if es != [] && !HasKey(es, k) {
      assert es[0].key != k;
      HasKeyTail(es, k);
      PutFresh(es[1..], k, x);
      assert es == [es[0]] + es[1..];
    }
  }

  /** A key the first entry does not carry is in the object exactly when it is in the rest. */
  lemma HasKeyTail(es: seq<Entry>, k: string)
    requires es != [] && es[0].key != k
    ensures HasKey(es, k) <==> HasKey(es[1..], k)
  {
    if HasKey(es, k) {
      var i :| 0 <= i < |es| && es[i].key == k;
      assert i != 0;
      assert es[1..][i - 1].key == k;
    }
    if HasKey(es[1..], k) {
      var i :| 0 <= i < |es[1..]| && es[1..][i].key == k;
      assert es[i + 1].key == k;
    }
  }

  /** Writing back the value a key already holds changes nothing. */
  lemma {:induction false} UpdateSame(es: seq<Entry>, k: string)
    requires HasKey(es, k)
    ensures Update(es, k, Lookup(es, k).value) == es
  {
    if es[0].key != k {
      HasKeyTail(es, k);
      UpdateSame(es[1..], k);
      assert [es[0]] + es[1..] == es;
    }
  }

  /** `Array.isArray(v) ? v : [v]`. */
  function AsList(v: Json): (r: seq<Json>)
    ensures v.JArr? ==> r == v.items
    ensures !v.JArr? ==> r == [v]
  {
    match v
    case JArr(items) => items
    case _ => [v]
  }

  // ---------------------------------------------------------------------
  // String(v)
  // ---------------------------------------------------------------------

  /** `String(v)` for a value that is not `undefined`. */
  function ToStr(v: Json): string
    decreases v
  {
    match v
    case JNull => "null"
    case JBool(b) => if b then "true" else "false"
    case JNum(r) => r
    case JStr(s) => s
    case JArr(items) => Join(items)
    case JObj(_) => "[object Object]"
  }

  /** `Array.prototype.join(",")`: `null` elements render as the empty string. */
  function Join(items: seq<Json>): string
    decreases items
  {
    if items == [] then ""
    else
      var head := if items[0] == JNull then "" else ToStr(items[0]);
      if |items| == 1 then head else head + "," + Join(items[1..])
  }

  /** `String(v)` where `v` may be `undefined`. */
  function Str(v: Option<Json>): string {
    match v
    case None => "undefined"
    case Some(x) => ToStr(x)
  }

  // ---------------------------------------------------------------------
  // Property paths (`a?.b?.c`) and writes through them
  // ---------------------------------------------------------------------

  /** `v?.p[0]?.p[1]...`. */
  function GetPath(v: Option<Json>, p: seq<string>): (r: Option<Json>)
    ensures v.None? ==> r.None?
    decreases |p|
  {
    if p == [] then v else GetPath(Member(v, p[0]), p[1..])
  }

  /**
   * `v.p[0]. ... .p[n-1] = x`, performed only when every object on the way
   * exists (the callers only write paths they have just read).
   */
  function SetPath(v: Json, p: seq<string>, x: Json): (r: Json)
    requires GetPath(Some(v), p).Some?
    ensures GetPath(Some(r), p) == Some(x)
    decreases |p|
  {
    if p == [] then x
    else
      var child := Member(Some(v), p[0]).value;
      JObj(Update(v.entries, p[0], SetPath(child, p[1..], x)))
  }

  /** Two paths that part company at some key: neither is a prefix of the other. */
  predicate Diverge(p: seq<string>, q: seq<string>)
    decreases |p|
  {
    |p| > 0 && |q| > 0 && (p[0] != q[0] || Diverge(p[1..], q[1..]))
  }

  /** A write through `p` leaves every path that diverges from `p` as it was. */
  lemma {:induction false} SetPathFrame(v: Json, p: seq<string>, x: Json, q: seq<string>)
    requires GetPath(Some(v), p).Some?
    requires Diverge(p, q)
    ensures GetPath(Some(SetPath(v, p, x)), q) == GetPath(Some(v), q)
    decreases |p|
  {
    var child := Member(Some(v), p[0]).value;
    var r := SetPath(v, p, x);
    if p[0] != q[0] {
      assert Member(Some(r), q[0]) == Member(Some(v), q[0]);
    } else {
      SetPathFrame(child, p[1..], x, q[1..]);
    }
  }

  /** Writing back the value a path already holds changes nothing. */
  lemma {:induction false} SetPathSame(v: Json, p: seq<string>)
    requires GetPath(Some(v), p).Some?
    ensures SetPath(v, p, GetPath(Some(v), p).value) == v
    decreases |p|
  {
    if p != [] {
      var child := Member(Some(v), p[0]).value;
      SetPathSame(child, p[1..]);
      UpdateSame(v.entries, p[0]);
    }
  }

  // ---------------------------------------------------------------------
  // Prefixes and suffixes (`startsWith`, `endsWith`, `includes`)
  // ---------------------------------------------------------------------

  /** Whether `t` begins with `p`. */
  predicate StartsWith(t: string, p: string) {
    |p| <= |t| && t[..|p|] == p
  }

  /** Whether `t` ends with `p`. */
  predicate EndsWith(t: string, p: string) {
    |p| <= |t| && t[|t| - |p|..] == p
  }

  /** `s.includes(p)`: `p` starts at some position of `s`. */
  predicate Includes(s: string, p: string) {
    exists i :: 0 <= i <= |s| && StartsWith(s[i..], p)
  }

  // ---------------------------------------------------------------------
  // String.prototype.replace with a global pattern
  // ---------------------------------------------------------------------

  /** `s.replace(/c/g, rep)`: every occurrence of `c`, left to right. */
  function ReplaceAll(s: string, c: char, rep: string): (r: string)
    ensures c !in s ==> r == s
  {
    if s == [] then []
    else (if s[0] == c then rep else [s[0]]) + ReplaceAll(s[1..], c, rep)
  }

  lemma {:induction false} ReplaceAllAppend(a: string, b: string, c: char, rep: string)
    ensures ReplaceAll(a + b, c, rep) == ReplaceAll(a, c, rep) + ReplaceAll(b, c, rep)
    decreases |a|
  {
    if a != [] {
      var h := if a[0] == c then rep else [a[0]];
      assert (a + b)[0] == a[0] && (a + b)[1..] == a[1..] + b;
      assert ReplaceAll(a + b, c, rep) == h + ReplaceAll(a[1..] + b, c, rep);
      ReplaceAllAppend(a[1..], b, c, rep);
      assert ReplaceAll(a, c, rep) == h + ReplaceAll(a[1..], c, rep);
    } else {
      assert a + b == b;
    }
  }

  // ---------------------------------------------------------------------
  // String.prototype.trim
  // ---------------------------------------------------------------------

  /** ECMAScript WhiteSpace and LineTerminator code points, which `trim` removes. */
  predicate IsSpace(c: char) {
    var n := c as int;
    n == 0x09 || n == 0x0A || n == 0x0B || n == 0x0C || n == 0x0D || n == 0x20
    || n == 0xA0 || n == 0x1680 || (0x2000 <= n <= 0x200A)
    || n == 0x2028 || n == 0x2029 || n == 0x202F || n == 0x205F
    || n == 0x3000 || n == 0xFEFF
  }

  predicate AllSpace(s: string) {
    forall i :: 0 <= i < |s| ==> IsSpace(s[i])
  }

  /** The first position at or after `from` that does not hold white space, or `|s|`. */
  function SkipSpaces(s: string, from: nat): (n: nat)
    requires from <= |s|
    ensures from <= n <= |s|
    ensures forall i :: from <= i < n ==> IsSpace(s[i])
    ensures n == |s| || !IsSpace(s[n])
    decreases |s| - from
  {
    if from == |s| || !IsSpace(s[from]) then from else SkipSpaces(s, from + 1)
  }

  /** The end of the text before `hi`: trailing white space back to `lo` is skipped. */
  function EndOfText(s: string, lo: nat, hi: nat): (n: nat)
    requires lo <= hi <= |s|
    ensures lo <= n <= hi
    ensures forall i :: n <= i < hi ==> IsSpace(s[i])
    ensures n == lo || !IsSpace(s[n - 1])
    decreases hi
  {
    if hi == lo || !IsSpace(s[hi - 1]) then hi else EndOfText(s, lo, hi - 1)
  }

  /** `s.trim()`: the longest slice of `s` that neither starts nor ends with white space. */
  function Trim(s: string): (r: string)
    ensures exists i, j :: 0 <= i <= j <= |s| && r == s[i..j] && AllSpace(s[..i]) && AllSpace(s[j..])
    ensures r == [] || (!IsSpace(r[0]) && !IsSpace(r[|r| - 1]))
    ensures r == [] <==> AllSpace(s)
  {
    var i := SkipSpaces(s, 0);
    var j := EndOfText(s, i, |s|);
    assert AllSpace(s[..i]) && AllSpace(s[j..]);
    assert i == j ==> AllSpace(s);
    s[i..j]
  }
}

=== FILE: reconcile.dfy ===
/**
 * The invoice-detail page's treatment of a parsed FatturaPA document: the
 * normalisation block of `_bindFatturaData` and `_mapOrdineAcquisto` in
 * webapp/controller/Dettaglio.controller.js.
 *
 * Block 2.1.2 `DatiOrdineAcquisto` (under `DatiGenerali`) holds the
 * purchase-order references, block 2.2.1 `DettaglioLinee` (under
 * `DatiBeniServizi`) the invoice lines. Both arrive from the XML-to-JSON
 * conversion either as a single object or as a list. The reconciler copies
 * purchase-order data onto the lines under one of two policies: per line,
 * when the first reference names a line (`RiferimentoNumeroLinea`), or
 * globally, when it does not.
 */
module Reconcile {
  import opened Wrappers
  import opened Js

  const LinesPath: seq<string> := ["FatturaElettronicaBody", "DatiBeniServizi", "DettaglioLinee"]
  const OrdersPath: seq<string> := ["FatturaElettronicaBody", "DatiGenerali", "DatiOrdineAcquisto"]

  /** `oFattura?.FatturaElettronicaBody?.DatiBeniServizi?.DettaglioLinee`. */
  function Lines(doc: Json): Option<Json> {
    GetPath(Some(doc), LinesPath)
  }

  /** `oFattura?.FatturaElettronicaBody?.DatiGenerali?.DatiOrdineAcquisto`. */
  function Orders(doc: Json): Option<Json> {
    GetPath(Some(doc), OrdersPath)
  }

  // ---------------------------------------------------------------------
  // Shape normaliser
  // ---------------------------------------------------------------------

  /** The shape the normaliser promises for a `DettaglioLinee` value. */
  function Wrapped(v: Option<Json>): Option<Json> {
    if Truthy(v) && !v.value.JArr? then Some(JArr([v.value])) else v
  }

  /**
   * The normalisation block of `_bindFatturaData`: a truthy `DettaglioLinee`
   * that is not an array is replaced by a one-element list holding it. The
   * first read, `oFattura.FatturaElettronicaBody`, has no optional chaining,
   * so a document that parsed to `null` raises a TypeError.
   */
  function NormaliseLines(doc: Json): (r: Result<Json, Fault>)
    ensures r.Failure? <==> doc == JNull
    ensures r.Success? ==> Lines(r.value) == Wrapped(Lines(doc))
    ensures r.Success? && (!Truthy(Lines(doc)) || Lines(doc).value.JArr?) ==> r.value == doc
    ensures r.Success? ==>
      forall q :: Diverge(LinesPath, q) ==> GetPath(Some(r.value), q) == GetPath(Some(doc), q)
  {
    var body :- Read(Some(doc), "FatturaElettronicaBody");
    if Truthy(Lines(doc)) then
      var v := Lines(doc).value;
      SetPathSame(doc, LinesPath);
      SetPathFrameAll(doc, LinesPath, JArr(AsList(v)));
      Success(SetPath(doc, LinesPath, JArr(AsList(v))))
    else Success(doc)
  }

  lemma SetPathFrameAll(v: Json, p: seq<string>, x: Json)
    requires GetPath(Some(v), p).Some?
    ensures forall q :: Diverge(p, q) ==> GetPath(Some(SetPath(v, p, x)), q) == GetPath(Some(v), q)
  {
    forall q | Diverge(p, q) {
      SetPathFrame(v, p, x, q);
    }
  }

  /** Normalising a normalised document changes nothing. */
  lemma NormaliseIdempotent(doc: Json)
    requires NormaliseLines(doc).Success?
    ensures NormaliseLines(NormaliseLines(doc).value) == NormaliseLines(doc)
  {
  }

  // ---------------------------------------------------------------------
  // Matching a line to a purchase-order reference
  // ---------------------------------------------------------------------

  /** `String(o.RiferimentoNumeroLinea)`. */
  function RefKey(o: Json): string {
    Str(Member(Some(o), "RiferimentoNumeroLinea"))
  }

  /** `String(l.NumeroLinea)`. */
  function LineKey(l: Json): string {
    Str(Member(Some(l), "NumeroLinea"))
  }

  /** The predicate handed to `aOrdini.find` holds of reference `o`. */
  predicate Matches(o: Json, key: string) {
    o != JNull && RefKey(o) == key
  }

  /** Reference `j` is the one `find` returns: it matches, and every earlier one was read and did not. */
  ghost predicate FirstMatch(orders: seq<Json>, key: string, j: int) {
    0 <= j < |orders| && Matches(orders[j], key)
    && forall k :: 0 <= k < j ==> orders[k] != JNull && !Matches(orders[k], key)
  }

  /** `find` reads every reference and none matches. */
  ghost predicate NoMatch(orders: seq<Json>, key: string) {
    forall k :: 0 <= k < |orders| ==> orders[k] != JNull && !Matches(orders[k], key)
  }

  /** No match, or a first match that is falsy: `if (oMatch)` does not fire. */
  ghost predicate NoTruthyMatch(orders: seq<Json>, key: string) {
    forall j :: FirstMatch(orders, key, j) ==> !Truthy(Some(orders[j]))
  }

  /**
   * `aOrdini.find(o => String(o.RiferimentoNumeroLinea) === key)` from
   * position `from`, answering the index found. Reading the property of a
   * `null` reference throws, so a `null` that comes before the first match
   * is an error.
   */
  function FindOrder(orders: seq<Json>, key: string, from: nat): (r: Result<Option<nat>, Fault>)
    requires from <= |orders|
    ensures r.Success? && r.value.Some? ==>
      var j := r.value.value;
      from <= j < |orders| && Matches(orders[j], key)
      && forall k :: from <= k < j ==> orders[k] != JNull && !Matches(orders[k], key)
    ensures r == Success(None) <==>
      forall k :: from <= k < |orders| ==> orders[k] != JNull && !Matches(orders[k], key)
    decreases |orders| - from
  {
    if from == |orders| then Success(None)
    else if orders[from] == JNull then Failure(ReadOfNull("RiferimentoNumeroLinea"))
    else if RefKey(orders[from]) == key then Success(Some(from))
    else FindOrder(orders, key, from + 1)
  }

  /** Seen from the start of the list, `FindOrder` finds exactly the first match. */
  lemma FindOrderFirst(orders: seq<Json>, key: string)
    ensures forall j :: FindOrder(orders, key, 0) == Success(Some(j)) <==> FirstMatch(orders, key, j)
    ensures FindOrder(orders, key, 0) == Success(None) <==> NoMatch(orders, key)
  {
    forall j | FirstMatch(orders, key, j)
      ensures FindOrder(orders, key, 0) == Success(Some(j))
    {
      FindOrderFinds(orders, key, 0, j);
    }
  }

  /** A match with no `null` and no match before it, from `from` on, is what `FindOrder` answers. */
  lemma {:induction false} FindOrderFinds(orders: seq<Json>, key: string, from: nat, j: nat)
    requires from <= j < |orders| && Matches(orders[j], key)
    requires forall k :: from <= k < j ==> orders[k] != JNull && !Matches(orders[k], key)
    ensures FindOrder(orders, key, from) == Success(Some(j))
    decreases j - from
  {
    if from < j {
      FindOrderSkips(orders, key, from);
      FindOrderFinds(orders, key, from + 1, j);
    } else {
      FindOrderHits(orders, key, from);
    }
  }

  /** Some reference from `from` on is `null`, and no reference before it matches. */
  ghost predicate NullBefore(orders: seq<Json>, key: string, from: nat) {
    exists j :: from <= j < |orders| && orders[j] == JNull
      && forall k :: from <= k < j ==> !Matches(orders[k], key)
  }

  /** The search throws exactly when it reaches a `null` reference before any match. */
  lemma {:induction false} FindOrderFailure(orders: seq<Json>, key: string, from: nat)
    requires from <= |orders|
    ensures FindOrder(orders, key, from).Failure? <==> NullBefore(orders, key, from)
    decreases |orders| - from
  {
    if from < |orders| {
      if orders[from] == JNull {
        assert from <= from < |orders| && orders[from] == JNull;
      } else if Matches(orders[from], key) {
        FindOrderHits(orders, key, from);
        forall j | from <= j < |orders| && orders[j] == JNull
          ensures exists k :: from <= k < j && Matches(orders[k], key)
        {
          assert from < j && Matches(orders[from], key);
        }
      } else {
        FindOrderSkips(orders, key, from);
        FindOrderFailure(orders, key, from + 1);
        if NullBefore(orders, key, from + 1) {
          var j :| from + 1 <= j < |orders| && orders[j] == JNull
            && forall k :: from + 1 <= k < j ==> !Matches(orders[k], key);
          assert forall k :: from <= k < j ==> !Matches(orders[k], key);
        }
        if NullBefore(orders, key, from) {
          var j :| from <= j < |orders| && orders[j] == JNull
            && forall k :: from <= k < j ==> !Matches(orders[k], key);
          assert from + 1 <= j;
        }
      }
    }
  }

  /** A reference that is read and does not match passes the search on. */
  lemma FindOrderSkips(orders: seq<Json>, key: string, from: nat)
    requires from < |orders| && orders[from] != JNull && !Matches(orders[from], key)
    ensures FindOrder(orders, key, from) == FindOrder(orders, key, from + 1)
  {
  }

  /** A matching reference ends the search. */
  lemma FindOrderHits(orders: seq<Json>, key: string, from: nat)
    requires from < |orders| && Matches(orders[from], key)
    ensures FindOrder(orders, key, from) == Success(Some(from))
  {
  }

  // ---------------------------------------------------------------------
  // Stamping a line
  // ---------------------------------------------------------------------

  /** `v || ""`. */
  function OrEmpty(v: Option<Json>): Json {
    Or(v, JStr(""))
  }

  /** The fields the per-line policy writes. */
  predicate PerLineField(k: string) {
    k == "odaIdDocumento" || k == "odaDataDoc"
  }

  /** The fields the global policy writes. */
  predicate GlobalField(k: string) {
    k == "odaIdDocumento" || k == "odaDataDoc" || k == "odaPosOda"
  }

  /** Line `out` is line `l` with the document id and date of reference `o` copied on, and nothing else changed. */
  ghost predicate StampedPerLine(l: Json, out: Json, o: Json) {
    && l.JObj? && out.JObj?
    && Lookup(out.entries, "odaIdDocumento") == Some(OrEmpty(Member(Some(o), "IdDocumento")))
    && Lookup(out.entries, "odaDataDoc") == Some(OrEmpty(Member(Some(o), "Data")))
    && forall k :: !PerLineField(k) ==> Lookup(out.entries, k) == Lookup(l.entries, k)
  }

  /** Line `out` is line `l` with the document id, date and item number of reference `o` copied on, and nothing else changed. */
  ghost predicate StampedGlobal(l: Json, out: Json, o: Json) {
    && l.JObj? && out.JObj?
    && Lookup(out.entries, "odaIdDocumento") == Some(OrEmpty(Member(Some(o), "IdDocumento")))
    && Lookup(out.entries, "odaDataDoc") == Some(OrEmpty(Member(Some(o), "Data")))
    && Lookup(out.entries, "odaPosOda") == Some(OrEmpty(Member(Some(o), "NumItem")))
    && forall k :: !GlobalField(k) ==> Lookup(out.entries, k) == Lookup(l.entries, k)
  }

  /**
   * One iteration of the per-line `forEach`: the first reference whose
   * `RiferimentoNumeroLinea` reads like the line's `NumeroLinea` gives the
   * line its document id and date; a line without a match is left alone.
   */
  function PerLineOne(l: Json, orders: seq<Json>): (r: Result<Json, Fault>)
    ensures l == JNull ==> r.Failure?
    ensures r.Success? && l.JObj? ==>
      forall j :: FirstMatch(orders, LineKey(l), j) && Truthy(Some(orders[j])) ==> StampedPerLine(l, r.value, orders[j])
    ensures r.Success? && NoMatch(orders, LineKey(l)) ==> r.value == l
    ensures r.Success? && NoTruthyMatch(orders, LineKey(l)) ==> r.value == l
    ensures r.Success? && l.JArr? ==> r.value == l
    ensures r.Success? && l.JObj? ==>
      r.value.JObj? && forall k :: !PerLineField(k) ==> Lookup(r.value.entries, k) == Lookup(l.entries, k)
    ensures r.Failure? <==>
      || l == JNull
      || FindOrder(orders, LineKey(l), 0).Failure?
      || (!l.JObj? && !l.JArr? && exists j :: FirstMatch(orders, LineKey(l), j) && Truthy(Some(orders[j])))
  {
    if l == JNull then Failure(ReadOfNull("NumeroLinea"))
    else
      FindOrderFirst(orders, LineKey(l));
      var m :- FindOrder(orders, LineKey(l), 0);
      if m.None? || !Truthy(Some(orders[m.value])) then Success(l)
      else
        var o := orders[m.value];
        match l
        case JObj(es) =>
          var es1 := Update(es, "odaIdDocumento", OrEmpty(Member(Some(o), "IdDocumento")));
          Success(JObj(Update(es1, "odaDataDoc", OrEmpty(Member(Some(o), "Data")))))
        case JArr(_) => Success(l)
        case _ => Failure(WriteToPrimitive("odaIdDocumento"))
  }

  /** One iteration of the global `forEach`: the line takes document id, date and item number of reference `o`. */
  function GlobalOne(l: Json, o: Json): (r: Result<Json, Fault>)
    ensures r.Failure? <==> !l.JObj? && !l.JArr?
    ensures l.JArr? ==> r == Success(l)
    ensures l.JObj? ==> r.Success? && StampedGlobal(l, r.value, o)
  {
    match l
    case JObj(es) =>
      var es1 := Update(es, "odaIdDocumento", OrEmpty(Member(Some(o), "IdDocumento")));
      var es2 := Update(es1, "odaDataDoc", OrEmpty(Member(Some(o), "Data")));
      Success(JObj(Update(es2, "odaPosOda", OrEmpty(Member(Some(o), "NumItem")))))
    case JArr(_) => Success(l)
    case JNull => Failure(WriteToNull("odaIdDocumento"))
    case _ => Failure(WriteToPrimitive("odaIdDocumento"))
  }

  /**
   * `xs.forEach(f)` over values `f` rewrites: every element is rewritten in
   * order, and the first one that throws ends the loop with its error.
   */
  function MapAll(xs: seq<Json>, f: Json -> Result<Json, Fault>): (r: Result<seq<Json>, Fault>)
    ensures r.Success? <==> forall i :: 0 <= i < |xs| ==> f(xs[i]).Success?
    ensures r.Success? ==> |r.value| == |xs| && forall i :: 0 <= i < |xs| ==> f(xs[i]) == Success(r.value[i])
    ensures r.Failure? ==>
      exists i :: 0 <= i < |xs| && f(xs[i]) == Failure(r.error) && forall k :: 0 <= k < i ==> f(xs[k]).Success?
  {
    if xs == [] then Success([])
    else
      var y :- f(xs[0]);
      var ys :- MapAll(xs[1..], f);
      Success([y] + ys)
  }

  // ---------------------------------------------------------------------
  // The reconciler
  // ---------------------------------------------------------------------

  /** What `PerLineOne` promises of one line, read off for every line a per-line pass rewrote. */
  lemma PerLineLifted(lines: seq<Json>, orders: seq<Json>, out: seq<Json>)
    requires |out| == |lines|
    requires forall i :: 0 <= i < |lines| ==> PerLineOne(lines[i], orders) == Success(out[i])
    ensures forall i :: 0 <= i < |lines| && lines[i].JObj? ==>
      forall j :: FirstMatch(orders, LineKey(lines[i]), j) && Truthy(Some(orders[j])) ==>
        StampedPerLine(lines[i], out[i], orders[j])
    ensures forall i :: 0 <= i < |lines| && NoMatch(orders, LineKey(lines[i])) ==> out[i] == lines[i]
    ensures forall i :: 0 <= i < |lines| && NoTruthyMatch(orders, LineKey(lines[i])) ==> out[i] == lines[i]
    ensures forall i :: 0 <= i < |lines| && lines[i].JObj? ==>
      out[i].JObj? && Lookup(out[i].entries, "odaPosOda") == Lookup(lines[i].entries, "odaPosOda")
    ensures forall i :: 0 <= i < |lines| && lines[i].JArr? ==> out[i] == lines[i]
  {
    forall i | 0 <= i < |lines| && lines[i].JObj?
      ensures out[i].JObj? && Lookup(out[i].entries, "odaPosOda") == Lookup(lines[i].entries, "odaPosOda")
    {
      assert PerLineOne(lines[i], orders) == Success(out[i]);
      assert !PerLineField("odaPosOda");
    }
  }

  /** The policy is read off the first reference alone: a truthy `RiferimentoNumeroLinea` means per line. */
  predicate PerLinePolicy(orders: seq<Json>)
    requires |orders| > 0
  {
    Truthy(Member(Some(orders[0]), "RiferimentoNumeroLinea"))
  }

  /**
   * The body of `_mapOrdineAcquisto` once both lists are in hand. Reading
   * `aOrdini[0].RiferimentoNumeroLinea` throws when the list is empty or
   * starts with `null`.
   */
  function ReconcileLines(lines: seq<Json>, orders: seq<Json>): (r: Result<seq<Json>, Fault>)
    ensures |orders| == 0 || orders[0] == JNull ==> r.Failure?
    ensures r.Success? ==> |r.value| == |lines|
    ensures r.Success? && PerLinePolicy(orders) ==>
      forall i :: 0 <= i < |lines| && lines[i].JObj? ==>
        forall j :: FirstMatch(orders, LineKey(lines[i]), j) && Truthy(Some(orders[j])) ==>
          StampedPerLine(lines[i], r.value[i], orders[j])
    ensures r.Success? && PerLinePolicy(orders) ==>
      forall i :: 0 <= i < |lines| && NoMatch(orders, LineKey(lines[i])) ==> r.value[i] == lines[i]
    ensures r.Success? && PerLinePolicy(orders) ==>
      forall i :: 0 <= i < |lines| && NoTruthyMatch(orders, LineKey(lines[i])) ==> r.value[i] == lines[i]
    ensures r.Success? && PerLinePolicy(orders) ==>
      forall i :: 0 <= i < |lines| && lines[i].JObj? ==>
        r.value[i].JObj? && Lookup(r.value[i].entries, "odaPosOda") == Lookup(lines[i].entries, "odaPosOda")
    ensures r.Success? && !PerLinePolicy(orders) ==>
      forall i :: 0 <= i < |lines| && lines[i].JObj? ==> StampedGlobal(lines[i], r.value[i], orders[0])
    ensures r.Success? ==> forall i :: 0 <= i < |lines| && lines[i].JArr? ==> r.value[i] == lines[i]
  {
    if |orders| == 0 then Failure(ReadOfUndefined("RiferimentoNumeroLinea"))
    else if orders[0] == JNull then Failure(ReadOfNull("RiferimentoNumeroLinea"))
    else if PerLinePolicy(orders) then
      var r := MapAll(lines, l => PerLineOne(l, orders));
      if r.Success? then PerLineLifted(lines, orders, r.value); r else r
    else MapAll(lines, l => GlobalOne(l, orders[0]))
  }

  /** A line container after reconciliation: a list stays a list, a single object stays single. */
  function Rewrap(container: Json, out: seq<Json>): Json
    requires |out| == |AsList(container)|
  {
    if container.JArr? then JArr(out) else out[0]
  }

  /**
   * The reconciliation of a document whose reference block and line block are
   * both truthy: the lines are rewritten in place, nothing outside
   * `DettaglioLinee` changes.
   */
  function Enrich(doc: Json): (r: Result<Json, Fault>)
    requires Truthy(Orders(doc)) && Truthy(Lines(doc))
    ensures r.Success? <==> ReconcileLines(AsList(Lines(doc).value), AsList(Orders(doc).value)).Success?
    ensures r.Success? ==>
      var out := ReconcileLines(AsList(Lines(doc).value), AsList(Orders(doc).value)).value;
      Lines(r.value) == Some(Rewrap(Lines(doc).value, out))
    ensures r.Success? ==>
      forall q :: Diverge(LinesPath, q) ==> GetPath(Some(r.value), q) == GetPath(Some(doc), q)
  {
    var container := Lines(doc).value;
    var out :- ReconcileLines(AsList(container), AsList(Orders(doc).value));
    SetPathFrameAll(doc, LinesPath, Rewrap(container, out));
    Success(SetPath(doc, LinesPath, Rewrap(container, out)))
  }

  /**
   * `_mapOrdineAcquisto` as the source writes it. The guard returns early
   * when either block is falsy; an empty reference list is truthy, passes
   * the guard, and the read of `aOrdini[0].RiferimentoNumeroLinea` throws.
   */
  function MapOrdineAcquistoAsWritten(doc: Json): (r: Result<Json, Fault>)
    ensures !Truthy(Orders(doc)) || !Truthy(Lines(doc)) ==> r == Success(doc)
    ensures Orders(doc) == Some(JArr([])) && Truthy(Lines(doc)) ==> r.Failure?
  {
    if !Truthy(Orders(doc)) || !Truthy(Lines(doc)) then Success(doc)
    else Enrich(doc)
  }

  /** The reference block holds no reference at all. */
  predicate NoOrders(doc: Json) {
    Orders(doc) == Some(JArr([]))
  }

  /**
   * `_mapOrdineAcquisto` with the guard extended to the empty reference list,
   * which is what the early return evidently means: no purchase-order data,
   * no enrichment. Apart from that case it is the code as written.
   */
  function MapOrdineAcquisto(doc: Json): (r: Result<Json, Fault>)
    ensures !Truthy(Orders(doc)) || !Truthy(Lines(doc)) || NoOrders(doc) ==> r == Success(doc)
    ensures !NoOrders(doc) ==> r == MapOrdineAcquistoAsWritten(doc)
    ensures r.Success? ==>
      forall q :: Diverge(LinesPath, q) ==> GetPath(Some(r.value), q) == GetPath(Some(doc), q)
    ensures r.Success? && Truthy(Lines(doc)) && Lines(doc).value.JArr? ==>
      Lines(r.value).Some? && Lines(r.value).value.JArr?
      && |Lines(r.value).value.items| == |Lines(doc).value.items|
  {
    if !Truthy(Orders(doc)) || !Truthy(Lines(doc)) || NoOrders(doc) then Success(doc)
    else Enrich(doc)
  }

  /** On an empty reference list the code as written throws where the corrected guard returns the document. */
  lemma EmptyOrdersFinding(doc: Json)
    requires NoOrders(doc) && Truthy(Lines(doc))
    ensures MapOrdineAcquistoAsWritten(doc).Failure?
    ensures MapOrdineAcquisto(doc) == Success(doc)
  {
  }

  /** A concrete document that exhibits the empty-reference-list crash. */
  lemma EmptyOrdersExample()
    ensures
      var doc := JObj([Entry("FatturaElettronicaBody", JObj([
        Entry("DatiGenerali", JObj([Entry("DatiOrdineAcquisto", JArr([]))])),
        Entry("DatiBeniServizi", JObj([Entry("DettaglioLinee", JArr([JObj([Entry("NumeroLinea", JStr("1"))])]))]))]))]);
      MapOrdineAcquistoAsWritten(doc).Failure? && MapOrdineAcquisto(doc) == Success(doc)
  {
    var lines := JArr([JObj([Entry("NumeroLinea", JStr("1"))])]);
    var generali := JObj([Entry("DatiOrdineAcquisto", JArr([]))]);
    var beni := JObj([Entry("DettaglioLinee", lines)]);
    var es := [Entry("DatiGenerali", generali), Entry("DatiBeniServizi", beni)];
    var doc := JObj([Entry("FatturaElettronicaBody", JObj(es))]);
    assert Member(Some(doc), OrdersPath[0]) == Some(JObj(es));
    assert Lookup(es, OrdersPath[1]) == Some(generali);
    assert Orders(doc) == Some(JArr([]));
    assert es[0].key != LinesPath[1];
    assert Lookup(es, LinesPath[1]) == Some(beni);
    assert Lines(doc) == Some(lines);
    EmptyOrdersFinding(doc);
  }

  /** Every line and every reference is an object, as a FatturaPA document always has them. */
  ghost predicate WellShaped(doc: Json) {
    && (Orders(doc).Some? ==> forall o :: o in AsList(Orders(doc).value) ==> o.JObj?)
    && (Lines(doc).Some? ==> forall l :: l in AsList(Lines(doc).value) ==> l.JObj?)
  }

  /** The reconciler never throws on a document whose lines and references are all objects. */
  lemma WellShapedNeverThrows(doc: Json)
    requires WellShaped(doc)
    ensures MapOrdineAcquisto(doc).Success?
    ensures !NoOrders(doc) ==> MapOrdineAcquistoAsWritten(doc).Success?
  {
    if Truthy(Orders(doc)) && Truthy(Lines(doc)) && !NoOrders(doc) {
      var lines := AsList(Lines(doc).value);
      var orders := AsList(Orders(doc).value);
      assert orders[0] in orders;
      if PerLinePolicy(orders) {
        forall i | 0 <= i < |lines|
          ensures PerLineOne(lines[i], orders).Success?
        {
          assert lines[i] in lines;
          forall k | 0 <= k < |orders| ensures orders[k] != JNull {
            assert orders[k] in orders;
          }
          FindOrderFailure(orders, LineKey(lines[i]), 0);
        }
      } else {
        forall i | 0 <= i < |lines|
          ensures GlobalOne(lines[i], orders[0]).Success?
        {
          assert lines[i] in lines;
        }
      }
    }
  }

  // ---------------------------------------------------------------------
  // The whole treatment of a freshly parsed document
  // ---------------------------------------------------------------------

  /**
   * `_bindFatturaData` after `JSON.parse`: normalise the lines, then
   * reconcile them with the purchase-order references, through the
   * reconciler as the source writes it.
   */
  function BindFatturaData(doc: Json): (r: Result<Json, Fault>)
    ensures doc == JNull ==> r.Failure?
    ensures r.Success? && Truthy(Lines(r.value)) ==> Lines(r.value).value.JArr?
    ensures r.Success? ==>
      forall q :: Diverge(LinesPath, q) ==> GetPath(Some(r.value), q) == GetPath(Some(doc), q)
    ensures WellShaped(doc) && doc != JNull && !NoOrders(doc) ==> r.Success?
    ensures doc != JNull && NoOrders(doc) && Truthy(Lines(doc)) ==> r.Failure?
  {
    var n :- NormaliseLines(doc);
    NormalisedShape(doc, n);
    assert MapOrdineAcquistoAsWritten(n).Success? ==> MapOrdineAcquisto(n) == MapOrdineAcquistoAsWritten(n);
    MapOrdineAcquistoAsWritten(n)
  }

  /** The same treatment through the corrected reconciler, which also accepts an empty reference list. */
  function BindFatturaDataCorrected(doc: Json): (r: Result<Json, Fault>)
    ensures doc == JNull ==> r.Failure?
    ensures r.Success? && Truthy(Lines(r.value)) ==> Lines(r.value).value.JArr?
    ensures r.Success? ==>
      forall q :: Diverge(LinesPath, q) ==> GetPath(Some(r.value), q) == GetPath(Some(doc), q)
    ensures WellShaped(doc) && doc != JNull ==> r.Success?
    ensures !NoOrders(doc) ==> r == BindFatturaData(doc)
  {
    var n :- NormaliseLines(doc);
    NormalisedShape(doc, n);
    MapOrdineAcquisto(n)
  }

  /** Normalising keeps the reference block, and keeps a well-shaped document well shaped. */
  lemma NormalisedShape(doc: Json, n: Json)
    requires NormaliseLines(doc) == Success(n)
    ensures Orders(n) == Orders(doc)
    ensures WellShaped(doc) ==> MapOrdineAcquisto(n).Success?
    ensures WellShaped(doc) && !NoOrders(doc) ==> MapOrdineAcquistoAsWritten(n).Success?
    ensures NoOrders(doc) && Truthy(Lines(doc)) ==> MapOrdineAcquistoAsWritten(n).Failure?
  {
    assert Orders(n) == Orders(doc) by {
      assert Diverge(LinesPath, OrdersPath);
    }
    assert WellShaped(doc) ==> WellShaped(n) by {
      if WellShaped(doc) && Lines(n).Some? {
        forall l | l in AsList(Lines(n).value) ensures l.JObj? {
          if !Lines(doc).value.JArr? {
            assert AsList(Lines(n).value) == [Lines(doc).value];
          }
        }
      }
    }
    if NoOrders(doc) && Truthy(Lines(doc)) {
      assert Truthy(Lines(n));
      EmptyOrdersFinding(n);
    }
    if WellShaped(doc) {
      WellShapedNeverThrows(n);
      if !NoOrders(doc) {
        assert !NoOrders(n);
      }
    }
  }
}

=== FILE: rows.dfy ===
/**
 * The invoice list of the home page (webapp/controller/Home.controller.js):
 * the status counters, the toolbar enablement driven by the selection, the
 * removal of rows by id, the OData string quoter, the status colourings, the
 * paging bookkeeping of the list binding and the block-reason check.
 *
 * A row is an entity of the `zeim_lista_fatture_passive` set, a plain object
 * whose fields are read by name.
 */
module InvoiceList {
  import opened Wrappers
  import opened Js

  datatype Row = Row(fields: seq<Entry>)

  /** `row.k`; rows are objects, so the read never throws. */
  function Field(r: Row, k: string): Option<Json> {
    Lookup(r.fields, k)
  }

  function Status(r: Row): Option<Json> {
    Field(r, "StatoFattura")
  }

  /** `row.StatoFattura === code`: strict equality with a string. */
  predicate HasStatus(r: Row, code: string) {
    Status(r) == Some(JStr(code))
  }

  // ---------------------------------------------------------------------
  // _updateCounts
  // ---------------------------------------------------------------------

  datatype Counts = Counts(all: nat, notAllowed: nat, working: nat, parked: nat, processed: nat, error: nat)

  /** The number of rows whose status is exactly `code`. */
  function CountStatus(rows: seq<Row>, code: string): (n: nat)
    ensures n <= |rows|
  {
    if rows == [] then 0
    else CountStatus(rows[..|rows| - 1], code) + (if HasStatus(rows[|rows| - 1], code) then 1 else 0)
  }

  /** The counters the tabs of the list show for `rows`. */
  function CountsOf(rows: seq<Row>): Counts {
    Counts(|rows|, CountStatus(rows, "0"), CountStatus(rows, "1"), CountStatus(rows, "2"), CountStatus(rows, "3"), 0)
  }

  /** `_updateCounts`: one pass over the rows, bumping the counter the status selects. */
  method UpdateCounts(rows: seq<Row>) returns (c: Counts)
    ensures c.all == |rows| && c.error == 0
    ensures c.notAllowed == CountStatus(rows, "0") && c.working == CountStatus(rows, "1")
    ensures c.parked == CountStatus(rows, "2") && c.processed == CountStatus(rows, "3")
  {
    c := Counts(|rows|, 0, 0, 0, 0, 0);
    var i := 0;
    while i < |rows|
      invariant 0 <= i <= |rows|
      invariant c.all == |rows| && c.error == 0
      invariant c.notAllowed == CountStatus(rows[..i], "0") && c.working == CountStatus(rows[..i], "1")
      invariant c.parked == CountStatus(rows[..i], "2") && c.processed == CountStatus(rows[..i], "3")
    {
      assert rows[..i + 1][..i] == rows[..i];
      var s := Status(rows[i]);
      if s == Some(JStr("0")) {
        c := c.(notAllowed := c.notAllowed + 1);
      } else if s == Some(JStr("1")) {
        c := c.(working := c.working + 1);
      } else if s == Some(JStr("2")) {
        c := c.(parked := c.parked + 1);
      } else if s == Some(JStr("3")) {
        c := c.(processed := c.processed + 1);
      }
      i := i + 1;
    }
    assert rows[..i] == rows;
  }

  /** Counting over two runs of rows adds up. */
  lemma {:induction false} CountAppend(a: seq<Row>, b: seq<Row>, code: string)
    ensures CountStatus(a + b, code) == CountStatus(a, code) + CountStatus(b, code)
    decreases |b|
  {
    if b == [] {
      assert a + b == a;
    } else {
      assert (a + b)[..|a + b| - 1] == a + b[..|b| - 1];
      CountAppend(a, b[..|b| - 1], code);
    }
  }

  /** One of the four statuses the counters know. */
  predicate KnownStatus(r: Row) {
    HasStatus(r, "0") || HasStatus(r, "1") || HasStatus(r, "2") || HasStatus(r, "3")
  }

  /**
   * A row falls under at most one counter, so the four status counters add
   * up to at most `All`, and to exactly `All` when every status is known.
   */
  lemma {:induction false} CountersPartition(rows: seq<Row>)
    ensures var c := CountsOf(rows);
      c.notAllowed + c.working + c.parked + c.processed <= c.all
    ensures var c := CountsOf(rows);
      (forall i :: 0 <= i < |rows| ==> KnownStatus(rows[i])) ==>
        c.notAllowed + c.working + c.parked + c.processed == c.all
    decreases |rows|
  {
    if rows != [] {
      var init := rows[..|rows| - 1];
      CountersPartition(init);
      assert forall i :: 0 <= i < |init| ==> init[i] == rows[i];
    }
  }

  // ---------------------------------------------------------------------
  // onRowSelectionChange
  // ---------------------------------------------------------------------

  /** A binding context of the table; `obj` is what `getObject()` answers. */
  datatype Context = Context(obj: Option<Row>)

  /**
   * The selected rows: indices without a context are dropped, and a context
   * without an object stands for `{}`.
   */
  function SelectedRows(ctxs: seq<Option<Context>>): (rows: seq<Row>)
    ensures |rows| <= |ctxs|
    ensures (forall i :: 0 <= i < |ctxs| ==> ctxs[i].Some?) ==>
      && |rows| == |ctxs|
      && forall i :: 0 <= i < |ctxs| ==> rows[i] == ctxs[i].value.obj.GetOr(Row([]))
  {
    if ctxs == [] then []
    else
      var rest := SelectedRows(ctxs[1..]);
      match ctxs[0]
      case None => rest
      case Some(ctx) => [ctx.obj.GetOr(Row([]))] + rest
  }

  /** The selection of two runs of indices is the selection of each, in order. */
  lemma {:induction false} SelectedRowsAppend(a: seq<Option<Context>>, b: seq<Option<Context>>)
    ensures SelectedRows(a + b) == SelectedRows(a) + SelectedRows(b)
    decreases |a|
  {
    if a != [] {
      assert (a + b)[1..] == a[1..] + b;
      SelectedRowsAppend(a[1..], b);
    } else {
      assert a + b == b;
    }
  }

  /** An index without a context contributes nothing, wherever it stands. */
  lemma AbsentContributesNothing(a: seq<Option<Context>>, b: seq<Option<Context>>)
    ensures SelectedRows(a + [None] + b) == SelectedRows(a + b)
  {
    SelectedRowsAppend(a + [None], b);
    SelectedRowsAppend(a, [None]);
    SelectedRowsAppend(a, b);
    assert SelectedRows([None]) == [];
  }

  datatype UiFlags = UiFlags(
    canStorno: bool,
    canBlocca: bool,
    canArchivia: bool,
    canOpenCreateApps: bool,
    enableAssignCompany: bool)

  /** Every row has `Archiviato === true`. */
  function AllArchived(rows: seq<Row>): (b: bool)
    ensures b <==> forall i :: 0 <= i < |rows| ==> Field(rows[i], "Archiviato") == Some(JBool(true))
  {
    if rows == [] then true
    else Field(rows[0], "Archiviato") == Some(JBool(true)) && AllArchived(rows[1..])
  }

  /** The toolbar flags for the selected rows. */
  function SelectionFlags(rows: seq<Row>): (f: UiFlags)
    ensures f.canArchivia <==> |rows| > 0 && forall i :: 0 <= i < |rows| ==> Field(rows[i], "Archiviato") == Some(JBool(true))
  {
    var single := if |rows| == 1 then Some(rows[0]) else None;
    UiFlags(
      canStorno := single.Some? && HasStatus(single.value, "3"),
      canBlocca := single.Some? && Truthy(Status(single.value)) && !HasStatus(single.value, "3"),
      canArchivia := |rows| > 0 && AllArchived(rows),
      canOpenCreateApps := single.Some? && HasStatus(single.value, "1"),
      enableAssignCompany := |rows| == 1 && !Truthy(Field(rows[0], "CompanyCode")))
  }

  /**
   * Reversal, blocking, opening the posting apps and assigning a company all
   * act on exactly one row; reversal and blocking never both apply; a row
   * still being worked may also be blocked.
   */
  lemma SingleRowActions(rows: seq<Row>)
    ensures var f := SelectionFlags(rows);
      (f.canStorno || f.canBlocca || f.canOpenCreateApps || f.enableAssignCompany) ==> |rows| == 1
    ensures var f := SelectionFlags(rows); !(f.canStorno && f.canBlocca)
    ensures var f := SelectionFlags(rows); f.canOpenCreateApps ==> f.canBlocca
    ensures var f := SelectionFlags(rows);
      |rows| == 1 ==> (f.canStorno <==> HasStatus(rows[0], "3")) && (f.canOpenCreateApps <==> HasStatus(rows[0], "1"))
    ensures var f := SelectionFlags(rows);
      |rows| == 1 ==>
        && (f.enableAssignCompany <==> !Truthy(Field(rows[0], "CompanyCode")))
        && (f.canBlocca <==> Truthy(Status(rows[0])) && !HasStatus(rows[0], "3"))
  {
  }

  /** With exactly one row selected, a truthy status means exactly one of reversal and blocking. */
  lemma StornoOrBlocca(r: Row)
    requires Truthy(Status(r))
    ensures var f := SelectionFlags([r]); f.canStorno != f.canBlocca
  {
  }

  // ---------------------------------------------------------------------
  // _removeRowsByIds
  // ---------------------------------------------------------------------

  /** `new Set((ids || []).filter(Boolean).map(String))`. */
  function IdKeys(ids: Option<seq<Json>>): set<string> {
    set x | x in ids.GetOr([]) && Truthy(Some(x)) :: ToStr(x)
  }

  /** `String(row.Id)`; a row without an id answers "undefined". */
  function RowKey(r: Row): string {
    Str(Field(r, "Id"))
  }

  /** The rows whose key is not in `keys`, in their order. */
  function Keep(rows: seq<Row>, keys: set<string>): (r: seq<Row>)
    ensures |r| <= |rows|
    ensures forall i :: 0 <= i < |r| ==> RowKey(r[i]) !in keys
    ensures forall i :: 0 <= i < |r| ==> r[i] in rows
    ensures forall i :: 0 <= i < |rows| && RowKey(rows[i]) !in keys ==> rows[i] in r
  {
    if rows == [] then []
    else
      var init := Keep(rows[..|rows| - 1], keys);
      if RowKey(rows[|rows| - 1]) in keys then init else init + [rows[|rows| - 1]]
  }

  /** The positions of the rows whose key is not in `keys`, increasing. */
  function KeptPositions(rows: seq<Row>, keys: set<string>): (idx: seq<nat>)
    ensures forall i :: 0 <= i < |idx| ==> idx[i] < |rows| && RowKey(rows[idx[i]]) !in keys
    ensures forall i, j :: 0 <= i < j < |idx| ==> idx[i] < idx[j]
    ensures forall j :: 0 <= j < |rows| && RowKey(rows[j]) !in keys ==> j in idx
  {
    if rows == [] then []
    else
      var init := KeptPositions(rows[..|rows| - 1], keys);
      if RowKey(rows[|rows| - 1]) in keys then init else init + [|rows| - 1]
  }

  /** `_removeRowsByIds`: the list without the rows whose id is among the truthy ids. */
  function RemoveRowsByIds(rows: seq<Row>, ids: Option<seq<Json>>): (r: seq<Row>)
    ensures forall i :: 0 <= i < |r| ==> RowKey(r[i]) !in IdKeys(ids)
  {
    Keep(rows, IdKeys(ids))
  }

  /**
   * The remaining rows are exactly the rows at the kept positions, in
   * increasing position order: a subsequence of the list that misses only
   * rows whose id was asked for.
   */
  lemma {:induction false} RemoveIsSubsequence(rows: seq<Row>, keys: set<string>)
    ensures var r := Keep(rows, keys); var idx := KeptPositions(rows, keys);
      |r| == |idx| && forall i :: 0 <= i < |r| ==> r[i] == rows[idx[i]]
    decreases |rows|
  {
    if rows != [] {
      var init := rows[..|rows| - 1];
      RemoveIsSubsequence(init, keys);
      var r0, idx0 := Keep(init, keys), KeptPositions(init, keys);
      var last := rows[|rows| - 1];
      if RowKey(last) in keys {
        assert Keep(rows, keys) == r0 && KeptPositions(rows, keys) == idx0;
      } else {
        assert Keep(rows, keys) == r0 + [last] && KeptPositions(rows, keys) == idx0 + [|rows| - 1];
      }
      assert forall i :: 0 <= i < |r0| ==> r0[i] == rows[idx0[i]];
    }
  }

  /** Removing the same ids again changes nothing. */
  lemma {:induction false} RemoveIdempotent(rows: seq<Row>, ids: Option<seq<Json>>)
    ensures RemoveRowsByIds(RemoveRowsByIds(rows, ids), ids) == RemoveRowsByIds(rows, ids)
  {
    KeepNothingToDrop(RemoveRowsByIds(rows, ids), IdKeys(ids));
  }

  lemma {:induction false} KeepNothingToDrop(rows: seq<Row>, keys: set<string>)
    requires forall i :: 0 <= i < |rows| ==> RowKey(rows[i]) !in keys
    ensures Keep(rows, keys) == rows
    decreases |rows|
  {
    if rows != [] {
      var init := rows[..|rows| - 1];
      KeepNothingToDrop(init, keys);
      assert init + [rows[|rows| - 1]] == rows;
    }
  }

  /** Removal never raises a counter: each status count of the remaining rows is at most the old one. */
  lemma {:induction false} RemoveLowersCounts(rows: seq<Row>, keys: set<string>, code: string)
    ensures CountStatus(Keep(rows, keys), code) <= CountStatus(rows, code)
    decreases |rows|
  {
    if rows != [] {
      var init := rows[..|rows| - 1];
      RemoveLowersCounts(init, keys, code);
      if RowKey(rows[|rows| - 1]) !in keys {
        CountAppend(Keep(init, keys), [rows[|rows| - 1]], code);
        assert [rows[|rows| - 1]][..0] == [];
      }
    }
  }

  // ---------------------------------------------------------------------
  // _odataStr
  // ---------------------------------------------------------------------

  /** Text made only of non-quote characters and doubled quotes: the body of an OData string literal. */
  predicate QuotesDoubled(t: string)
    decreases |t|
  {
    t == []
    || (t[0] != '\'' && QuotesDoubled(t[1..]))
    || (|t| >= 2 && t[0] == '\'' && t[1] == '\'' && QuotesDoubled(t[2..]))
  }

  /** Reading a literal body back: each doubled quote stands for one quote. */
  function Undouble(t: string): string
    decreases |t|
  {
    if t == [] then []
    else if |t| >= 2 && t[0] == '\'' && t[1] == '\'' then "'" + Undouble(t[2..])
    else [t[0]] + Undouble(t[1..])
  }

  /** `(v == null ? "" : String(v)).trim().replace(/'/g, "''")`. */
  function OdataStr(v: Option<Json>): (r: string)
    ensures QuotesDoubled(r)
    ensures Undouble(r) == Trim(if v.None? || v == Some(JNull) then "" else ToStr(v.value))
  {
    var text := if v.None? || v == Some(JNull) then "" else ToStr(v.value);
    var t := Trim(text);
    DoubleQuotes(t);
    ReplaceAll(t, '\'', "''")
  }

  /** Doubling every quote yields a literal body, and undoubling gives the text back. */
  lemma {:induction false} DoubleQuotes(s: string)
    ensures QuotesDoubled(ReplaceAll(s, '\'', "''"))
    ensures Undouble(ReplaceAll(s, '\'', "''")) == s
    decreases |s|
  {
    if s != [] {
      DoubleQuotes(s[1..]);
      var rest := ReplaceAll(s[1..], '\'', "''");
      var r := ReplaceAll(s, '\'', "''");
      if s[0] == '\'' {
        assert r == "''" + rest && r[2..] == rest;
      } else {
        assert r == [s[0]] + rest && r[1..] == rest;
      }
      assert s == [s[0]] + s[1..];
    }
  }

  // ---------------------------------------------------------------------
  // getHighlight and formatter.statusState
  // ---------------------------------------------------------------------

  /** The `sap.ui.core.ValueState` names the list uses for colouring. */
  datatype ValueState = StateNone | StateSuccess | StateWarning | StateError

  /** `getHighlight`: the traffic-light code of a row. */
  function GetHighlight(code: Option<Json>): (r: ValueState)
    ensures r != StateNone ==> code.Some? && code.value.JStr? && |code.value.s| == 1
  {
    if code == Some(JStr("G")) then StateSuccess
    else if code == Some(JStr("Y")) then StateWarning
    else if code == Some(JStr("R")) then StateError
    else StateNone
  }

  /** The traffic-light code that yields each colour. */
  function LightOf(s: ValueState): Option<string> {
    match s
    case StateSuccess => Some("G")
    case StateWarning => Some("Y")
    case StateError => Some("R")
    case StateNone => None
  }

  /** Green, yellow and red are the only codes with a colour, one colour each. */
  lemma HighlightInverse(code: Option<Json>)
    ensures var s := GetHighlight(code);
      s != StateNone <==> exists c :: LightOf(s) == Some(c) && code == Some(JStr(c))
    ensures forall s :: LightOf(s).Some? ==> GetHighlight(Some(JStr(LightOf(s).value))) == s
  {
    var s := GetHighlight(code);
    if s != StateNone {
      assert LightOf(s) == Some(code.value.s);
    }
  }

  /** `toLowerCase` on the letters A-Z; see the README for why this is enough here. */
  function AsciiLower(s: string): (r: string)
    ensures |r| == |s|
    ensures forall i :: 0 <= i < |s| ==> r[i] == (if 'A' <= s[i] <= 'Z' then (s[i] as int + 32) as char else s[i])
  {
    if s == [] then []
    else [if 'A' <= s[0] <= 'Z' then (s[0] as int + 32) as char else s[0]] + AsciiLower(s[1..])
  }

  /**
   * `formatter.statusState`: the colour of a processing outcome text. A
   * truthy value that is not a string has no `toLowerCase` and throws.
   */
  function StatusState(esito: Option<Json>): (r: Result<ValueState, Fault>)
    ensures r.Failure? <==> Truthy(esito) && !esito.value.JStr?
    ensures !Truthy(esito) ==> r == Success(StateNone)
  {
    if !Truthy(esito) then Success(StateNone)
    else if !esito.value.JStr? then Failure(NotAFunction("toLowerCase"))
    else
      var s := AsciiLower(esito.value.s);
      if Includes(s, "processato") then Success(StateSuccess)
      else if Includes(s, "errore") then Success(StateError)
      else if Includes(s, "da processare") then Success(StateWarning)
      else Success(StateNone)
  }

  lemma AsciiLowerIdempotent(s: string)
    ensures AsciiLower(AsciiLower(s)) == AsciiLower(s)
  {
  }

  /** The outcome colour ignores letter case: a text and its lower-case form colour alike. */
  lemma StatusStateIgnoresCase(s: string)
    requires s != ""
    ensures StatusState(Some(JStr(s))) == StatusState(Some(JStr(AsciiLower(s))))
  {
    AsciiLowerIdempotent(s);
  }

  /** "processato" wins over "errore": an outcome mentioning both is shown as success. */
  lemma ProcessedWins(s: string)
    requires Includes(AsciiLower(s), "processato")
    ensures StatusState(Some(JStr(s))) == Success(StateSuccess)
  {
  }

  /**
   * Each outcome of a text, by the words its lower-case form mentions:
   * "processato" gives success; otherwise "errore" gives an error; otherwise
   * "da processare" gives a warning; a text with none of the three has no
   * colour. A string never throws.
   */
  lemma StatusOfText(s: string)
    ensures var t, r := AsciiLower(s), StatusState(Some(JStr(s)));
      && r.Success?
      && (r.value == StateSuccess <==> Includes(t, "processato"))
      && (r.value == StateError <==> !Includes(t, "processato") && Includes(t, "errore"))
      && (r.value == StateWarning <==>
            !Includes(t, "processato") && !Includes(t, "errore") && Includes(t, "da processare"))
      && (r.value == StateNone <==>
            !Includes(t, "processato") && !Includes(t, "errore") && !Includes(t, "da processare"))
  {
    if s == "" {
      var t := AsciiLower(s);
      assert t == "";
      assert !Includes(t, "processato") && !Includes(t, "errore") && !Includes(t, "da processare");
    }
  }

  // ---------------------------------------------------------------------
  // _bindTable paging
  // ---------------------------------------------------------------------

  /** The page size the list asks the service for. */
  const PageSize: nat := 200

  datatype Pagination = Pagination(top: nat, skip: nat, hasMore: bool, isLoading: bool)

  /** The list as the table shows it and the paging fields that drive the next read. */
  datatype ListState = ListState(rows: seq<Row>, page: Pagination)

  /** The `$top`/`$skip` of a read sent to the service. */
  datatype Request = Request(top: nat, skip: nat)

  /** The list when the controller starts: empty, more to come, nothing in flight. */
  const Initial: ListState := ListState([], Pagination(PageSize, 0, true, false))

  /**
   * `_bindTable(reset)`: a reset empties the list and rewinds the paging;
   * a read is sent only when more rows may exist and none is in flight.
   */
  function Bind(s: ListState, reset: bool): (r: (ListState, Option<Request>))
    ensures r.1.Some? <==> (reset || s.page.hasMore) && !s.page.isLoading
    ensures r.1.Some? ==> r.0.page.isLoading && r.1.value == Request(r.0.page.top, r.0.page.skip)
    ensures reset ==> r.0.rows == [] && r.0.page.skip == 0
    ensures !reset ==> r.0.rows == s.rows
  {
    var s1 := if reset then ListState([], s.page.(skip := 0, hasMore := true)) else s;
    if !s1.page.hasMore || s1.page.isLoading then (s1, None)
    else (s1.(page := s1.page.(isLoading := true)), Some(Request(s1.page.top, s1.page.skip)))
  }

  /** The success handler: append the page (absent means empty), advance, and stop after a short page. */
  function OnPage(s: ListState, results: Option<seq<Row>>): (r: ListState)
    ensures r.rows == s.rows + results.GetOr([])
    ensures !r.page.isLoading
    ensures r.page.hasMore <==> |results.GetOr([])| == s.page.top
  {
    var page := results.GetOr([]);
    ListState(s.rows + page, s.page.(skip := s.page.skip + |page|, hasMore := |page| == s.page.top, isLoading := false))
  }

  /** The error handler: nothing in flight and no further pages. */
  function OnError(s: ListState): (r: ListState)
    ensures r.rows == s.rows && !r.page.isLoading && !r.page.hasMore
  {
    s.(page := s.page.(isLoading := false, hasMore := false))
  }

  /** The paging invariant: `$skip` counts exactly the rows already in the list. */
  predicate InStep(s: ListState) {
    s.page.skip == |s.rows| && s.page.top == PageSize
  }

  /**
   * Every transition keeps the list and `$skip` in step, so each read asks
   * for the rows right after the ones already shown: no gap, no overlap.
   */
  lemma PagingInStep(s: ListState, reset: bool, results: Option<seq<Row>>)
    requires InStep(s)
    ensures InStep(Initial)
    ensures InStep(Bind(s, reset).0)
    ensures InStep(OnPage(s, results))
    ensures InStep(OnError(s))
    ensures Bind(s, reset).1.Some? ==> Bind(s, reset).1.value == Request(PageSize, |Bind(s, reset).0.rows|)
  {
  }

  /** After a short page or an error, only a reset sends another read. */
  lemma ShortPageEndsPaging(s: ListState, results: Option<seq<Row>>)
    requires |results.GetOr([])| != s.page.top
    ensures Bind(OnPage(s, results), false).1.None?
    ensures Bind(OnError(s), false).1.None?
  {
  }

  /** The counters after a page are the old counters plus those of the page. */
  lemma PageCounts(s: ListState, results: Option<seq<Row>>, code: string)
    ensures CountStatus(OnPage(s, results).rows, code) == CountStatus(s.rows, code) + CountStatus(results.GetOr([]), code)
  {
    CountAppend(s.rows, results.GetOr([]), code);
  }

  // ---------------------------------------------------------------------
  // The block reason
  // ---------------------------------------------------------------------

  /** The longest reason the back end stores, spaces included. */
  const MaxReasonLength: nat := 60

  datatype BlockReason = Missing | TooLong | Accepted(reason: string)

  /** The confirm button is enabled while the text has something besides white space. */
  function ConfirmEnabled(raw: string): bool {
    |Trim(raw)| > 0
  }

  /**
   * The confirm handler: a blank text is refused, a text longer than the
   * limit before trimming is refused, and otherwise the trimmed text is saved.
   */
  function ValidateBlockReason(raw: string): (r: BlockReason)
    ensures r == Missing <==> AllSpace(raw)
    ensures r == TooLong <==> !AllSpace(raw) && |raw| > MaxReasonLength
    ensures r.Accepted? ==> r.reason == Trim(raw) && r.reason != [] && |r.reason| <= MaxReasonLength
    ensures r.Accepted? ==> !IsSpace(r.reason[0]) && !IsSpace(r.reason[|r.reason| - 1])
  {
    var trimmed := Trim(raw);
    if trimmed == [] then Missing
    else if |raw| > MaxReasonLength then TooLong
    else Accepted(trimmed)
  }

  /** The button is enabled exactly when the handler would not refuse the text as blank. */
  lemma ConfirmMatchesValidation(raw: string)
    ensures ConfirmEnabled(raw) <==> ValidateBlockReason(raw) != Missing
  {
  }
}

=== FILE: totals.dfy ===
/**
 * The document total of the invoice-detail page: `_getInvoiceLines` and
 * `_updateTotal` in webapp/controller/Dettaglio.controller.js.
 *
 * `parseFloat` is not modelled: every amount is read by a `parse` function
 * the caller supplies, answering an amount in cents or `None` where
 * `parseFloat` answers NaN. What the model fixes is which values are read,
 * how their text is prepared, and how they are combined.
 */
module Totals {
  import opened Wrappers
  import opened Js

  /** The names a line container may go by, in the order they are probed. */
  const Aliases: seq<string> := ["items", "Items", "DettaglioLinee", "Lines", "Righe"]

  /** Alias `i` is the first one whose value is truthy; it is the operand the `||` chain answers. */
  ghost predicate FirstTruthyAlias(inv: Json, i: int) {
    0 <= i < |Aliases| && Truthy(Member(Some(inv), Aliases[i]))
    && forall k :: 0 <= k < i ==> !Truthy(Member(Some(inv), Aliases[k]))
  }

  /** No alias holds a truthy value. */
  ghost predicate NoTruthyAlias(inv: Json) {
    forall k :: 0 <= k < |Aliases| ==> !Truthy(Member(Some(inv), Aliases[k]))
  }

  /** The position of the first truthy alias from `from` on. */
  function Probe(inv: Json, from: nat): (r: Option<nat>)
    requires from <= |Aliases|
    ensures r.Some? ==>
      from <= r.value < |Aliases| && Truthy(Member(Some(inv), Aliases[r.value]))
      && forall k :: from <= k < r.value ==> !Truthy(Member(Some(inv), Aliases[k]))
    ensures r.None? <==> forall k :: from <= k < |Aliases| ==> !Truthy(Member(Some(inv), Aliases[k]))
    decreases |Aliases| - from
  {
    if from == |Aliases| then None
    else if Truthy(Member(Some(inv), Aliases[from])) then Some(from)
    else Probe(inv, from + 1)
  }

  /**
   * `_getInvoiceLines`: the value of the first truthy alias, as a list. An
   * empty array is truthy, so it wins over every later alias; the aliases are
   * never merged.
   */
  function GetInvoiceLines(inv: Json): (r: seq<Json>)
    ensures NoTruthyAlias(inv) ==> r == []
    ensures forall i :: FirstTruthyAlias(inv, i) ==> r == AsList(Member(Some(inv), Aliases[i]).value)
  {
    match Probe(inv, 0)
    case None => []
    case Some(i) => AsList(Member(Some(inv), Aliases[i]).value)
  }

  // ---------------------------------------------------------------------
  // Amounts
  // ---------------------------------------------------------------------

  /** The position of the first comma in `s`. */
  function FirstComma(s: string): (r: Option<nat>)
    ensures r.None? <==> ',' !in s
    ensures r.Some? ==> r.value < |s| && s[r.value] == ',' && ',' !in s[..r.value]
  {
    if s == [] then None
    else if s[0] == ',' then Some(0)
    else
      var r := FirstComma(s[1..]);
      if r.None? then None
      else
        assert s[..r.value + 1] == [s[0]] + s[1..][..r.value];
        Some(r.value + 1)
  }

  /** `s.replace(",", ".")` with a string pattern: only the first comma is replaced. */
  function ReplaceFirstComma(s: string): (r: string)
    ensures |r| == |s|
    ensures ',' !in s ==> r == s
    ensures ',' in s ==>
      exists i :: 0 <= i < |s| && s[i] == ',' && ',' !in s[..i] && r == s[..i] + "." + s[i + 1..]
  {
    match FirstComma(s)
    case None => s
    case Some(i) => s[..i] + "." + s[i + 1..]
  }

  /** `(v ?? "0").toString().replace(",", ".")`: the text handed to `parseFloat`. */
  function AmountText(v: Option<Json>): string {
    if v.None? || v == Some(JNull) then "0" else ReplaceFirstComma(ToStr(v.value))
  }

  /** `parseFloat(text) || 0`: NaN (and zero) become zero. */
  function Amount(v: Option<Json>, parse: string -> Option<int>): int {
    parse(AmountText(v)).GetOr(0)
  }

  /** The sum of the line amounts, as a reference: the last amount added to the sum of the rest. */
  function Sum(items: seq<Json>, parse: string -> Option<int>): int {
    if items == [] then 0
    else Sum(items[..|items| - 1], parse) + Amount(Member(Some(items[|items| - 1]), "Totale"), parse)
  }

  /** The sum over two runs of lines is the sum of the sums. */
  lemma {:induction false} SumAppend(a: seq<Json>, b: seq<Json>, parse: string -> Option<int>)
    ensures Sum(a + b, parse) == Sum(a, parse) + Sum(b, parse)
    decreases |b|
  {
    if b != [] {
      assert (a + b)[..|a + b| - 1] == a + b[..|b| - 1];
      SumAppend(a, b[..|b| - 1], parse);
    } else {
      assert a + b == a;
    }
  }

  /** `items.reduce((sum, item) => sum + val, acc)`: the running total carried front to back. */
  function Reduce(items: seq<Json>, parse: string -> Option<int>, acc: int): int
    decreases |items|
  {
    if items == [] then acc
    else Reduce(items[1..], parse, acc + Amount(Member(Some(items[0]), "Totale"), parse))
  }

  /** The `reduce` from `acc` is `acc` plus the sum of the amounts. */
  lemma {:induction false} ReduceIsSum(items: seq<Json>, parse: string -> Option<int>, acc: int)
    ensures Reduce(items, parse, acc) == acc + Sum(items, parse)
    decreases |items|
  {
    if items != [] {
      var x := items[0];
      ReduceIsSum(items[1..], parse, acc + Amount(Member(Some(x), "Totale"), parse));
      assert items == [x] + items[1..];
      SumAppend([x], items[1..], parse);
      assert Sum([x], parse) == Sum([], parse) + Amount(Member(Some(x), "Totale"), parse);
    }
  }

  /** A line whose amount does not parse adds nothing to the total. */
  lemma UnparseableAddsNothing(a: seq<Json>, x: Json, b: seq<Json>, parse: string -> Option<int>)
    requires parse(AmountText(Member(Some(x), "Totale"))).None?
    ensures Sum(a + [x] + b, parse) == Sum(a + b, parse)
  {
    SumAppend(a + [x], b, parse);
    SumAppend(a, [x], parse);
    SumAppend(a, b, parse);
    assert Sum([x], parse) == Sum([], parse) + Amount(Member(Some(x), "Totale"), parse);
  }

  /**
   * `_updateTotal`: the sum of the line amounts when some alias yields lines,
   * the invoice-level `Totale` otherwise. The selected invoice may be absent
   * or falsy, in which case `{}` stands in for it.
   */
  function UpdateTotal(selected: Option<Json>, parse: string -> Option<int>): (r: int)
    ensures
      var inv := if Truthy(selected) then selected.value else JObj([]);
      && (NoTruthyAlias(inv) ==> r == Amount(Member(Some(inv), "Totale"), parse))
      && forall i :: FirstTruthyAlias(inv, i) ==>
           var lines := AsList(Member(Some(inv), Aliases[i]).value);
           r == if lines == [] then Amount(Member(Some(inv), "Totale"), parse) else Sum(lines, parse)
    ensures !Truthy(selected) ==> r == parse("0").GetOr(0)
  {
    var inv := if Truthy(selected) then selected.value else JObj([]);
    var items := GetInvoiceLines(inv);
    ReduceIsSum(items, parse, 0);
    if |items| > 0 then Reduce(items, parse, 0)
    else Amount(Member(Some(inv), "Totale"), parse)
  }

  /** An empty `items` array shadows every later alias: the total falls back to `Totale`. */
  lemma EmptyItemsShadowAliases(inv: Json, parse: string -> Option<int>)
    requires Member(Some(inv), "items") == Some(JArr([]))
    requires Truthy(Some(inv))
    ensures GetInvoiceLines(inv) == []
    ensures UpdateTotal(Some(inv), parse) == Amount(Member(Some(inv), "Totale"), parse)
  {
    assert FirstTruthyAlias(inv, 0);
  }

  /** Italian decimals: "10,50" is handed to `parseFloat` as "10.50". */
  lemma LocaleDecimalText()
    ensures AmountText(Some(JStr("10,50"))) == "10.50"
  {
    var s := "10,50";
    assert s[0] != ',' && s[1] != ',' && s[2] == ',';
    assert FirstComma(s[2..]) == Some(0);
    assert FirstComma(s[1..]) == Some(1);
    assert FirstComma(s) == Some(2);
  }
}

=== FILE: valuehelp.dfy ===
/**
 * The value-help dialogs of the filter bar
 * (webapp/controller/helpers/ValueHelpHandler.js): which columns a search
 * filters on, how the search text is chosen, and which rows are selected
 * again once the dialog's table has reloaded.
 */
module ValueHelp {
  import opened Wrappers
  import opened Js

  /** `new Filter(path, FilterOperator.Contains, value)`. */
  datatype Filter = Contains(path: string, value: string)

  /** What `binding.filter(...)` receives: no filter at all, or one OR group. */
  datatype BindingFilter = Cleared | AnyOf(filters: seq<Filter>)

  /** The options the dialog passes: the key column and the longest text it can hold. */
  datatype FilterOptions = FilterOptions(maxKeyLength: Option<int>, keyProp: Option<string>)

  /** `maxKeyLength` is a number; it is truthy unless it is zero or absent. */
  predicate MaxLengthSet(o: FilterOptions) {
    o.maxKeyLength.Some? && o.maxKeyLength.value != 0
  }

  predicate KeyPropSet(o: FilterOptions) {
    o.keyProp.Some? && o.keyProp.value != ""
  }

  /** The guard of `_applyFilter`: the query is too long for the key column. */
  predicate DropsKey(query: string, o: FilterOptions) {
    MaxLengthSet(o) && query != "" && |query| > o.maxKeyLength.value && KeyPropSet(o)
  }

  /** `props.filter(p => p !== k)`. */
  function Without(props: seq<string>, k: string): (r: seq<string>)
    ensures |r| <= |props|
    ensures forall p :: p in r <==> p in props && p != k
  {
    if props == [] then []
    else if props[0] == k then Without(props[1..], k)
    else [props[0]] + Without(props[1..], k)
  }

  /** `filter` works element by element: filtering two runs is filtering each, in order. */
  lemma {:induction false} WithoutAppend(a: seq<string>, b: seq<string>, k: string)
    ensures Without(a + b, k) == Without(a, k) + Without(b, k)
    decreases |a|
  {
    if a != [] {
      assert (a + b)[1..] == a[1..] + b;
      WithoutAppend(a[1..], b, k);
    } else {
      assert a + b == b;
    }
  }

  /** One property is dropped exactly when it is `k`; a list without `k` is kept whole, in order. */
  lemma {:induction false} WithoutKeeps(props: seq<string>, k: string)
    ensures forall p :: Without([p], k) == if p == k then [] else [p]
    ensures k !in props ==> Without(props, k) == props
    decreases |props|
  {
    forall p ensures Without([p], k) == if p == k then [] else [p] {
      assert [p][1..] == [];
    }
    if props != [] {
      WithoutKeeps(props[1..], k);
    }
  }

  /** The columns searched: all of them, but the key column when the query cannot fit it. */
  function FilterProps(query: string, props: seq<string>, o: FilterOptions): (r: seq<string>)
    ensures !DropsKey(query, o) ==> r == props
    ensures DropsKey(query, o) ==> forall p :: p in r <==> p in props && p != o.keyProp.value
  {
    if DropsKey(query, o) then Without(props, o.keyProp.value) else props
  }

  /**
   * `_applyFilter`: a blank query clears the filter; otherwise every searched
   * column gets a `Contains` on the query as typed (untrimmed), and the
   * filters form one OR group, or the filter is cleared when no column is left.
   */
  function ApplyFilter(query: string, props: seq<string>, o: FilterOptions): (r: BindingFilter)
    ensures AllSpace(query) ==> r == Cleared
    ensures r.AnyOf? ==> |r.filters| > 0 && !AllSpace(query)
    ensures r.AnyOf? ==> var cols := FilterProps(query, props, o);
      |r.filters| == |cols| && forall i :: 0 <= i < |cols| ==> r.filters[i] == Contains(cols[i], query)
    ensures !AllSpace(query) && FilterProps(query, props, o) != [] ==> r.AnyOf?
  {
    var cols := FilterProps(query, props, o);
    var inner := if query != "" && Trim(query) != "" then ContainsAll(cols, query) else [];
    if |inner| > 0 then AnyOf(inner) else Cleared
  }

  /** `cols.map(p => new Filter(p, Contains, query))`. */
  function ContainsAll(cols: seq<string>, query: string): (r: seq<Filter>)
    ensures |r| == |cols|
    ensures forall i :: 0 <= i < |cols| ==> r[i] == Contains(cols[i], query)
  {
    if cols == [] then [] else [Contains(cols[0], query)] + ContainsAll(cols[1..], query)
  }

  /**
   * The key column is never searched for a text longer than it can hold:
   * with both options set, a `Contains` on the key column carries a query
   * within the limit.
   */
  lemma KeyColumnFits(query: string, props: seq<string>, o: FilterOptions)
    requires MaxLengthSet(o) && KeyPropSet(o)
    ensures var r := ApplyFilter(query, props, o);
      r.AnyOf? ==> forall f :: f in r.filters && f.path == o.keyProp.value ==> |query| <= o.maxKeyLength.value
  {
    var r := ApplyFilter(query, props, o);
    if r.AnyOf? {
      forall f | f in r.filters && f.path == o.keyProp.value
        ensures |query| <= o.maxKeyLength.value
      {
        var cols := FilterProps(query, props, o);
        var i :| 0 <= i < |r.filters| && r.filters[i] == f;
        assert cols[i] in cols;
      }
    }
  }

  // ---------------------------------------------------------------------
  // The search text of the filter bar
  // ---------------------------------------------------------------------

  /** A filter field that answers a value with something besides white space; a missing control answers nothing. */
  predicate Filled(field: Option<string>) {
    field.Some? && !AllSpace(field.value)
  }

  /** The position of the first filled filter field from `from` on. */
  function FirstFilled(fields: seq<Option<string>>, from: nat): (r: Option<nat>)
    requires from <= |fields|
    ensures r.Some? ==> from <= r.value < |fields| && Filled(fields[r.value])
    ensures r.Some? ==> forall k :: from <= k < r.value ==> !Filled(fields[k])
    ensures r.None? ==> forall k :: from <= k < |fields| ==> !Filled(fields[k])
    decreases |fields| - from
  {
    if from == |fields| then None
    else if Filled(fields[from]) then Some(from)
    else FirstFilled(fields, from + 1)
  }

  /**
   * The query of the filter bar's search: the trimmed basic search, or else
   * the trimmed value of the first filter field that has one, or else "".
   */
  function SearchQuery(basic: string, fields: seq<Option<string>>): (r: string)
    ensures Trim(basic) != "" ==> r == Trim(basic)
    ensures Trim(basic) == "" ==> match FirstFilled(fields, 0)
      case Some(i) => r == Trim(fields[i].value)
      case None => r == ""
  {
    var b := Trim(basic);
    if b != "" then b
    else match FirstFilled(fields, 0)
      case Some(i) => Trim(fields[i].value)
      case None => ""
  }

  /**
   * The chosen query carries no surrounding white space, and a non-empty one
   * is never blank, so it filters whenever some column is left to search.
   */
  lemma SearchQueryFilters(basic: string, fields: seq<Option<string>>, props: seq<string>, o: FilterOptions)
    ensures var q := SearchQuery(basic, fields);
      q == [] || (!IsSpace(q[0]) && !IsSpace(q[|q| - 1]))
    ensures var q := SearchQuery(basic, fields);
      q != [] && FilterProps(q, props, o) != [] ==> ApplyFilter(q, props, o).AnyOf?
  {
    var q := SearchQuery(basic, fields);
    if q != [] {
      assert !IsSpace(q[0]);
    }
  }

  // ---------------------------------------------------------------------
  // _reselectRows
  // ---------------------------------------------------------------------

  /** Row `obj` is one of the selected tokens: an object whose key field is one of the token keys. */
  predicate Reselected(obj: Option<Json>, keys: set<string>, keyProp: string) {
    Truthy(obj) && exists k :: k in keys && Member(obj, keyProp) == Some(JStr(k))
  }

  /**
   * `_reselectRows`: the table indices whose row carries a selected key, in
   * increasing order. `objs[i]` is what the `i`-th loaded context's
   * `getObject()` answers.
   */
  method ReselectRows(objs: seq<Option<Json>>, keys: set<string>, keyProp: string) returns (sel: seq<nat>)
    ensures forall i :: 0 <= i < |objs| ==> (i in sel <==> Reselected(objs[i], keys, keyProp))
    ensures forall i :: 0 <= i < |sel| ==> sel[i] < |objs|
    ensures forall i, j :: 0 <= i < j < |sel| ==> sel[i] < sel[j]
  {
    sel := [];
    var i := 0;
    while i < |objs|
      invariant 0 <= i <= |objs|
      invariant forall j :: 0 <= j < i ==> (j in sel <==> Reselected(objs[j], keys, keyProp))
      invariant forall j :: 0 <= j < |sel| ==> sel[j] < i
      invariant forall a, b :: 0 <= a < b < |sel| ==> sel[a] < sel[b]
    {
      var obj := objs[i];
      var v := Member(obj, keyProp);
      if Truthy(obj) && v.Some? && v.value.JStr? && v.value.s in keys {
        sel := sel + [i];
      }
      i := i + 1;
    }
  }
}

=== FILE: xml.dfy ===
/**
 * The XML view of an invoice: `_jsonToPrettyXml` in
 * webapp/controller/Home.controller.js, which prints the parsed FatturaPA
 * document back as indented XML for the read-only editor.
 *
 * An object becomes an element whose children are its keys in order, with
 * the `$` key turned into attributes; an array repeats its element name; any
 * other value becomes escaped text; `null` becomes an empty element.
 */
module PrettyXml {
  import opened Wrappers
  import opened Js

  // ---------------------------------------------------------------------
  // escapeXml
  // ---------------------------------------------------------------------

  /**
   * `escapeXml`: the five passes below. The result is the per-character
   * escape, holds no markup delimiter, has an entity at every ampersand, and
   * reads back as the original text.
   */
  function EscapeXml(s: string): (r: string)
    ensures r == EscapeRef(s)
    ensures NoMarkup(r) && AmpersandsAreEntities(r)
    ensures Unescape(r) == s
  {
    EscapePassesArePerChar(s);
    UnescapeEscapeRef(s);
    EscapePasses(s)
  }

  /** The five global replacements as written, `&` first so no entity is escaped twice. */
  function EscapePasses(s: string): string {
    var s1 := ReplaceAll(s, '&', "&amp;");
    var s2 := ReplaceAll(s1, '<', "&lt;");
    var s3 := ReplaceAll(s2, '>', "&gt;");
    var s4 := ReplaceAll(s3, '"', "&quot;");
    ReplaceAll(s4, '\'', "&apos;")
  }

  /** The entity reference XML uses for each of its five predefined entities. */
  function EscapeChar(c: char): string {
    if c == '&' then "&amp;"
    else if c == '<' then "&lt;"
    else if c == '>' then "&gt;"
    else if c == '"' then "&quot;"
    else if c == '\'' then "&apos;"
    else [c]
  }

  /** None of the characters that delimit markup or attribute values. */
  predicate NoMarkup(t: string) {
    forall i :: 0 <= i < |t| ==> t[i] != '<' && t[i] != '>' && t[i] != '"' && t[i] != '\''
  }

  /** Position `i` begins one of the five predefined entity references. */
  predicate EntityAt(t: string, i: int)
    requires 0 <= i <= |t|
  {
    var u := t[i..];
    (|u| >= 5 && u[..5] == "&amp;") || (|u| >= 4 && u[..4] == "&lt;")
    || (|u| >= 4 && u[..4] == "&gt;") || (|u| >= 6 && u[..6] == "&quot;")
    || (|u| >= 6 && u[..6] == "&apos;")
  }

  /** Every ampersand of `t` begins an entity reference. */
  predicate AmpersandsAreEntities(t: string) {
    forall i :: 0 <= i < |t| && t[i] == '&' ==> EntityAt(t, i)
  }

  /**
   * The reference escape: each character replaced on its own by its entity.
   * Its result is text that cannot close a tag or an attribute value, and
   * whose every ampersand starts an entity.
   */
  function EscapeRef(s: string): (r: string)
    ensures NoMarkup(r)
    ensures AmpersandsAreEntities(r)
  {
    if s == [] then []
    else
      var t := EscapeRef(s[1..]);
      EscapeJoin(s[0], t);
      EscapeChar(s[0]) + t
  }

  /** One escaped character in front of safe text keeps it safe. */
  lemma EscapeJoin(c: char, t: string)
    requires NoMarkup(t) && AmpersandsAreEntities(t)
    ensures NoMarkup(EscapeChar(c) + t)
    ensures AmpersandsAreEntities(EscapeChar(c) + t)
  {
    var h := EscapeChar(c);
    forall i | 0 <= i < |h + t| && (h + t)[i] == '&'
      ensures EntityAt(h + t, i)
    {
      if i < |h| {
        assert i == 0 && (h + t)[..|h|] == h;
      } else {
        assert (h + t)[i..] == t[i - |h|..];
      }
    }
  }

  lemma ReplaceOne(c: char, d: char, rep: string)
    ensures ReplaceAll([c], d, rep) == if c == d then rep else [c]
  {
    assert [c][1..] == [];
  }

  lemma EscapePassesChar(c: char)
    ensures EscapePasses([c]) == EscapeChar(c)
  {
    ReplaceOne(c, '&', "&amp;");
    if c == '&' {
      assert '<' !in "&amp;" && '>' !in "&amp;" && '"' !in "&amp;" && '\'' !in "&amp;";
    } else {
      ReplaceOne(c, '<', "&lt;");
      if c == '<' {
        assert '>' !in "&lt;" && '"' !in "&lt;" && '\'' !in "&lt;";
      } else {
        ReplaceOne(c, '>', "&gt;");
        if c == '>' {
          assert '"' !in "&gt;" && '\'' !in "&gt;";
        } else {
          ReplaceOne(c, '"', "&quot;");
          if c == '"' {
            assert '\'' !in "&quot;";
          } else {
            ReplaceOne(c, '\'', "&apos;");
          }
        }
      }
    }
  }

  /** The five passes of `escapeXml` amount to the per-character escape. */
  lemma {:induction false} EscapePassesArePerChar(s: string)
    ensures EscapePasses(s) == EscapeRef(s)
    decreases |s|
  {
    if s != [] {
      var a, b := [s[0]], s[1..];
      assert s == a + b;
      var a1, b1 := ReplaceAll(a, '&', "&amp;"), ReplaceAll(b, '&', "&amp;");
      ReplaceAllAppend(a, b, '&', "&amp;");
      var a2, b2 := ReplaceAll(a1, '<', "&lt;"), ReplaceAll(b1, '<', "&lt;");
      ReplaceAllAppend(a1, b1, '<', "&lt;");
      var a3, b3 := ReplaceAll(a2, '>', "&gt;"), ReplaceAll(b2, '>', "&gt;");
      ReplaceAllAppend(a2, b2, '>', "&gt;");
      var a4, b4 := ReplaceAll(a3, '"', "&quot;"), ReplaceAll(b3, '"', "&quot;");
      ReplaceAllAppend(a3, b3, '"', "&quot;");
      ReplaceAllAppend(a4, b4, '\'', "&apos;");
      assert EscapePasses(s) == EscapePasses(a) + EscapePasses(b);
      EscapePassesChar(s[0]);
      EscapePassesArePerChar(b);
    }
  }

  /** Reading the five entity references back; any other character stands for itself. */
  function Unescape(t: string): string
    decreases |t|
  {
    if t == [] then []
    else if t[0] != '&' then [t[0]] + Unescape(t[1..])
    else if StartsWith(t, "&amp;") then "&" + Unescape(t[5..])
    else if StartsWith(t, "&lt;") then "<" + Unescape(t[4..])
    else if StartsWith(t, "&gt;") then ">" + Unescape(t[4..])
    else if StartsWith(t, "&quot;") then "\"" + Unescape(t[6..])
    else if StartsWith(t, "&apos;") then "'" + Unescape(t[6..])
    else [t[0]] + Unescape(t[1..])
  }

  /** A text that begins with the entity `e` starts with `e`, and what follows `e` is `rest`. */
  lemma EntityPrefix(e: string, rest: string)
    ensures StartsWith(e + rest, e)
    ensures (e + rest)[|e|..] == rest
  {
    assert (e + rest)[..|e|] == e;
  }

  lemma UnescapeStep(c: char, rest: string)
    ensures Unescape(EscapeChar(c) + rest) == [c] + Unescape(rest)
  {
    var e := EscapeChar(c);
    var t := e + rest;
    EntityPrefix(e, rest);
    if c == '&' {
      assert Unescape(t) == "&" + Unescape(rest);
    } else if c == '<' {
      assert t[1] == 'l' && !StartsWith(t, "&amp;");
    } else if c == '>' {
      assert t[1] == 'g' && !StartsWith(t, "&amp;") && !StartsWith(t, "&lt;");
    } else if c == '"' {
      assert t[1] == 'q' && !StartsWith(t, "&amp;") && !StartsWith(t, "&lt;") && !StartsWith(t, "&gt;");
    } else if c == '\'' {
      assert t[1] == 'a' && t[2] == 'p';
      assert !StartsWith(t, "&amp;") && !StartsWith(t, "&lt;") && !StartsWith(t, "&gt;") && !StartsWith(t, "&quot;");
    } else {
      assert t[0] == c && t[1..] == rest;
    }
  }

  /** Escaped text reads back as the original: the escape loses nothing. */
  lemma {:induction false} UnescapeEscapeRef(s: string)
    ensures Unescape(EscapeRef(s)) == s
    decreases |s|
  {
    if s != [] {
      UnescapeStep(s[0], EscapeRef(s[1..]));
      UnescapeEscapeRef(s[1..]);
    }
  }

  /** Text that is safe to place between tags or quotes. */
  predicate Escaped(t: string) {
    NoMarkup(t) && AmpersandsAreEntities(t)
  }

  /** What follows position `k` of safe text is safe text. */
  lemma EscapedSuffix(t: string, k: nat)
    requires Escaped(t) && k <= |t|
    ensures Escaped(t[k..])
  {
    var u := t[k..];
    forall i | 0 <= i < |u| && u[i] == '&' ensures EntityAt(u, i) {
      assert u[i..] == t[k + i..];
      assert EntityAt(t, k + i);
    }
  }

  /**
   * Safe text is the escape of what it reads back as: an escaped text is
   * determined by the text it stands for, so nothing but the escape has no
   * markup, entities at its ampersands, and the same reading.
   */
  lemma {:induction false} EscapedIsEscapeRef(t: string)
    requires Escaped(t)
    ensures EscapeRef(Unescape(t)) == t
    decreases |t|
  {
    if t != [] {
      var n, c := EscapedHead(t);
      EscapedSuffix(t, n);
      EscapedIsEscapeRef(t[n..]);
      assert ([c] + Unescape(t[n..]))[1..] == Unescape(t[n..]);
      assert t == t[..n] + t[n..];
    }
  }

  /** Safe text opens with one character or one entity, standing for the character `c`. */
  lemma EscapedHead(t: string) returns (n: nat, c: char)
    requires Escaped(t) && t != []
    ensures 1 <= n <= |t|
    ensures Unescape(t) == [c] + Unescape(t[n..])
    ensures EscapeChar(c) == t[..n]
  {
    assert t[0] == '&' ==> EntityAt(t, 0);
    assert t[0..] == t;
    n := if t[0] != '&' then 1
      else if StartsWith(t, "&amp;") then 5
      else if StartsWith(t, "&lt;") then 4
      else if StartsWith(t, "&gt;") then 4
      else 6;
    c := Unescape(t)[0];
  }

  // ---------------------------------------------------------------------
  // Object.keys and the spread of a value
  // ---------------------------------------------------------------------

  /** The decimal digit for `d`. */
  function Digit(d: nat): (c: char)
    requires d < 10
    ensures '0' <= c <= '9'
    ensures c as int - '0' as int == d
  {
    (48 + d) as char
  }

  /** The decimal text of an array index, as a property key. */
  function NatStr(n: nat): (r: string)
    ensures |r| > 0
    ensures |r| == 1 <==> n < 10
    ensures forall i :: 0 <= i < |r| ==> '0' <= r[i] <= '9'
  {
    if n < 10 then [Digit(n)] else NatStr(n / 10) + [Digit(n % 10)]
  }

  /** Distinct indices have distinct keys: no two elements of an array share a property name. */
  lemma {:induction false} NatStrInjective(a: nat, b: nat)
    requires NatStr(a) == NatStr(b)
    ensures a == b
    decreases a
  {
    if a >= 10 && b >= 10 {
      var x, y := NatStr(a), NatStr(b);
      assert x[|x| - 1] == Digit(a % 10) && y[|y| - 1] == Digit(b % 10);
      assert x[..|x| - 1] == NatStr(a / 10) && y[..|y| - 1] == NatStr(b / 10);
      NatStrInjective(a / 10, b / 10);
    }
  }

  /** Every key is a number `i`, the key of position `i`. */
  predicate IndexKeyed(es: seq<Entry>) {
    forall i :: 0 <= i < |es| ==> es[i].key == NatStr(i)
  }

  /** Index keys are distinct, and reading key `i` gives back the value at position `i`. */
  lemma IndexKeysDistinct(es: seq<Entry>)
    requires IndexKeyed(es)
    ensures DistinctKeys(es)
    ensures forall i :: 0 <= i < |es| ==> Lookup(es, NatStr(i)) == Some(es[i].value)
  {
    forall i, j | 0 <= i < j < |es| ensures es[i].key != es[j].key {
      if es[i].key == es[j].key {
        NatStrInjective(i, j);
      }
    }
    forall i | 0 <= i < |es| ensures Lookup(es, NatStr(i)) == Some(es[i].value) {
      LookupDistinct(es, i);
    }
  }

  /** In an object with distinct keys, each entry's key reads its own value. */
  lemma {:induction false} LookupDistinct(es: seq<Entry>, i: nat)
    requires DistinctKeys(es) && i < |es|
    ensures Lookup(es, es[i].key) == Some(es[i].value)
    decreases i
  {
    if i > 0 {
      assert es[0].key != es[i].key;
      assert es[1..][i - 1] == es[i];
      LookupDistinct(es[1..], i - 1);
    }
  }

  /** No key holds a character that would end an attribute name or a tag. */
  predicate PlainKeys(es: seq<Entry>) {
    forall i :: 0 <= i < |es| ==> '<' !in es[i].key && '>' !in es[i].key && '"' !in es[i].key
  }

  /**
   * The enumerable own properties of `Object(v)` in `Object.keys` order: the
   * entries of an object, the indexed elements of an array, the indexed
   * characters of a string; a number or a boolean has none.
   */
  function OwnEntries(v: Json): (r: seq<Entry>)
    ensures v.JObj? ==> r == v.entries
    ensures v.JArr? ==>
      && |r| == |v.items| && DistinctKeys(r)
      && forall i :: 0 <= i < |v.items| ==> Lookup(r, NatStr(i)) == Some(v.items[i])
    ensures v.JStr? ==>
      && |r| == |v.s| && DistinctKeys(r)
      && forall i :: 0 <= i < |v.s| ==> Lookup(r, NatStr(i)) == Some(JStr([v.s[i]]))
    ensures !v.JObj? ==> PlainKeys(r)
    ensures (v.JNull? || v.JBool? || v.JNum?) ==> r == []
  {
    match v
    case JObj(es) => es
    case JArr(items) =>
      var r := seq(|items|, i requires 0 <= i < |items| => Entry(NatStr(i), items[i]));
      IndexKeysDistinct(r);
      IndexPlain(r);
      r
    case JStr(s) =>
      var r := seq(|s|, i requires 0 <= i < |s| => Entry(NatStr(i), JStr([s[i]])));
      IndexKeysDistinct(r);
      IndexPlain(r);
      r
    case _ => []
  }

  /** Index keys are digits only. */
  lemma IndexPlain(es: seq<Entry>)
    requires IndexKeyed(es)
    ensures PlainKeys(es)
  {
    forall i | 0 <= i < |es| ensures '<' !in es[i].key && '>' !in es[i].key && '"' !in es[i].key {
      var k := NatStr(i);
      assert forall j :: 0 <= j < |k| ==> '0' <= k[j] <= '9';
    }
  }

  // ---------------------------------------------------------------------
  // nodeToXml
  // ---------------------------------------------------------------------

  /** `"  ".repeat(n)`. */
  function Indent(n: nat): (r: string)
    ensures |r| == 2 * n && AllSpace(r)
    ensures forall i :: 0 <= i < |r| ==> r[i] == ' '
  {
    if n == 0 then "" else "  " + Indent(n - 1)
  }

  /** One `k="escaped value"` pair. */
  function Attr(e: Entry): string {
    e.key + "=\"" + EscapeXml(ToStr(e.value)) + "\""
  }

  /** The attribute pairs joined by single spaces. */
  function Attrs(es: seq<Entry>): string {
    if es == [] then ""
    else if |es| == 1 then Attr(es[0])
    else Attr(es[0]) + " " + Attrs(es[1..])
  }

  /**
   * `attrText`: empty when `$` is falsy, otherwise a space and the pairs of
   * `Object.keys($)`: each key, `="`, some safe text that reads back as
   * `String` of the key's value, and `"`, in key order and joined by single
   * spaces. Since that text holds no quote, each value stays inside its own
   * quotes; when no key holds `<`, `>` or `"` either, the whole text opens no
   * tag and has exactly two quotes per key.
   */
  function AttrText(dollar: Option<Json>): (r: string)
    ensures !Truthy(dollar) ==> r == ""
    ensures Truthy(dollar) ==> |r| > 0 && r[0] == ' '
    ensures Truthy(dollar) ==>
      var es := OwnEntries(dollar.value);
      exists ts :: EscapedValues(es, ts) && r == " " + Pairs(es, ts)
    ensures Truthy(dollar) && PlainKeys(OwnEntries(dollar.value)) ==>
      '<' !in r && '>' !in r && multiset(r)['"'] == 2 * |OwnEntries(dollar.value)|
  {
    if Truthy(dollar) then
      var es := OwnEntries(dollar.value);
      assert PlainKeys(es) ==> multiset(Attrs(es))['"'] == 2 * |es| && '<' !in Attrs(es) && '>' !in Attrs(es) by {
        if PlainKeys(es) {
          AttrsPlain(es);
        }
      }
      AttrsArePairs(es);
      " " + Attrs(es)
    else ""
  }

  /** `ts[i]` is safe text that reads back as `String` of the value of entry `i`. */
  predicate EscapedValues(es: seq<Entry>, ts: seq<string>) {
    && |ts| == |es|
    && forall i :: 0 <= i < |es| ==> Escaped(ts[i]) && Unescape(ts[i]) == ToStr(es[i].value)
  }

  /** The pairs `key="text"` of the entries, with the given value texts, joined by single spaces. */
  function Pairs(es: seq<Entry>, ts: seq<string>): string
    requires |ts| == |es|
  {
    if es == [] then ""
    else
      var pair := es[0].key + "=\"" + ts[0] + "\"";
      if |es| == 1 then pair else pair + " " + Pairs(es[1..], ts[1..])
  }

  /** The escaped values of the entries, in order. */
  function EscapedOf(es: seq<Entry>): (ts: seq<string>)
    ensures EscapedValues(es, ts)
  {
    seq(|es|, i requires 0 <= i < |es| => EscapeXml(ToStr(es[i].value)))
  }

  /** The attribute pairs are the entries' keys with their escaped values. */
  lemma {:induction false} AttrsArePairs(es: seq<Entry>)
    ensures Attrs(es) == Pairs(es, EscapedOf(es))
    ensures exists ts :: EscapedValues(es, ts) && Attrs(es) == Pairs(es, ts)
    decreases |es|
  {
    var ts := EscapedOf(es);
    if es != [] {
      AttrsArePairs(es[1..]);
      assert ts[1..] == EscapedOf(es[1..]);
    }
    assert EscapedValues(es, ts);
  }

  /** The pairs of plain keys hold no angle bracket, and exactly two quotes per pair. */
  lemma {:induction false} AttrsPlain(es: seq<Entry>)
    requires PlainKeys(es)
    ensures '<' !in Attrs(es) && '>' !in Attrs(es) && multiset(Attrs(es))['"'] == 2 * |es|
    decreases |es|
  {
    if es != [] {
      AttrPlain(es[0]);
      if |es| > 1 {
        var a, t := Attr(es[0]), Attrs(es[1..]);
        AttrsPlain(es[1..]);
        assert Attrs(es) == a + " " + t;
        assert multiset(a + " " + t) == multiset(a) + multiset(" ") + multiset(t);
        assert multiset(" ")['"'] == 0 && '<' !in " " && '>' !in " ";
      }
    }
  }

  /** One pair with a plain key: two quotes, no angle bracket. */
  lemma AttrPlain(e: Entry)
    requires '<' !in e.key && '>' !in e.key && '"' !in e.key
    ensures '<' !in Attr(e) && '>' !in Attr(e) && multiset(Attr(e))['"'] == 2
  {
    var t := EscapeXml(ToStr(e.value));
    assert '<' !in t && '>' !in t && '"' !in t by {
      assert forall i :: 0 <= i < |t| ==> t[i] != '<' && t[i] != '>' && t[i] != '"';
    }
    QuotedPair(e.key, t);
  }

  /** `k="t"` for a key and a value free of quotes and angle brackets. */
  lemma QuotedPair(k: string, t: string)
    requires '<' !in k && '>' !in k && '"' !in k
    requires '<' !in t && '>' !in t && '"' !in t
    ensures var p := k + "=\"" + t + "\""; '<' !in p && '>' !in p && multiset(p)['"'] == 2
  {
    var q := "=\"";
    var c := "\"";
    assert '<' !in q && '>' !in q && '<' !in c && '>' !in c;
    assert multiset(q)['"'] == 1 by {
      assert multiset(q) == multiset{'=', '"'};
    }
    assert multiset(c)['"'] == 1 by {
      assert multiset(c) == multiset{'"'};
    }
    assert multiset(k)['"'] == 0 && multiset(t)['"'] == 0;
    MultisetSplit(k, q, t, c);
  }

  /** Counting a character in four joined pieces. */
  lemma MultisetSplit(a: string, b: string, c: string, d: string)
    ensures multiset(a + b + c + d) == multiset(a) + multiset(b) + multiset(c) + multiset(d)
    ensures forall x :: x !in a && x !in b && x !in c && x !in d ==> x !in a + b + c + d
  {
  }

  /** Every key of the object is `$`: the element has no children. */
  predicate OnlyAttributes(es: seq<Entry>) {
    forall i :: 0 <= i < |es| ==> es[i].key == "$"
  }

  /** The element for `value` under tag `name`, at depth `level`. */
  function NodeToXml(name: string, value: Json, level: nat): string
    decreases value, 2
  {
    match value
    case JNull => Indent(level) + "<" + name + "/>\n"
    case JArr(items) => Repeat(name, items, level)
    case JObj(es) =>
      var attrText := AttrText(Lookup(es, "$"));
      if OnlyAttributes(es) then Indent(level) + "<" + name + attrText + "/>\n"
      else
        Indent(level) + "<" + name + attrText + ">\n" + Children(es, level + 1)
        + Indent(level) + "</" + name + ">\n"
    case _ => Indent(level) + "<" + name + ">" + EscapeXml(ToStr(value)) + "</" + name + ">\n"
  }

  /** `value.map(v => nodeToXml(name, v, level)).join("")`: one element per array item. */
  function Repeat(name: string, items: seq<Json>, level: nat): string
    decreases items, 1
  {
    if items == [] then "" else NodeToXml(name, items[0], level) + Repeat(name, items[1..], level)
  }

  /** The children of an object element: every key but `$`, in key order. */
  function Children(es: seq<Entry>, level: nat): string
    decreases es, 1
  {
    if es == [] then ""
    else if es[0].key == "$" then Children(es[1..], level)
    else NodeToXml(es[0].key, es[0].value, level) + Children(es[1..], level)
  }

  /**
   * `x` is one element at depth `level`: it opens with the indentation of
   * its depth and a tag named `name`, and closes with `>` and a newline.
   */
  predicate Element(x: string, name: string, level: nat) {
    && |x| >= 2 * level + |name| + 3
    && x[..2 * level + 1 + |name|] == Indent(level) + "<" + name
    && x[|x| - 2..] == ">\n"
  }

  /** Every value but an array prints as a single element, one line or a block of lines. */
  lemma ElementShape(name: string, value: Json, level: nat)
    requires !value.JArr?
    ensures Element(NodeToXml(name, value, level), name, level)
  {
    if value.JObj? {
      ObjectShape(name, value.entries, level);
    } else {
      LeafShape(name, value, level);
    }
  }

  /**
   * `null` prints as an empty element. Any other scalar prints its escaped
   * text between an opening and a closing tag, on one line: text with no
   * markup delimiter that reads back as `String(value)`.
   */
  lemma LeafShape(name: string, value: Json, level: nat)
    requires !value.JArr? && !value.JObj?
    ensures Element(NodeToXml(name, value, level), name, level)
    ensures value.JNull? ==> NodeToXml(name, value, level) == Indent(level) + "<" + name + "/>\n"
    ensures !value.JNull? ==> exists t ::
      && NoMarkup(t) && AmpersandsAreEntities(t) && Unescape(t) == ToStr(value)
      && NodeToXml(name, value, level) == Indent(level) + "<" + name + ">" + t + "</" + name + ">\n"
  {
    if value.JNull? {
      ShapeOf(name, level, "/");
    } else {
      var t := EscapeXml(ToStr(value));
      ShapeOf(name, level, ">" + t + "</" + name);
    }
  }

  /**
   * An object whose only key is `$` prints as one self-closing element
   * carrying its attributes; any other object prints as a block: the opening
   * tag, the children of every key but `$`, and the closing tag at the same
   * indentation.
   */
  lemma ObjectShape(name: string, es: seq<Entry>, level: nat)
    ensures Element(NodeToXml(name, JObj(es), level), name, level)
    ensures var x := NodeToXml(name, JObj(es), level);
      OnlyAttributes(es) <==> x == Indent(level) + "<" + name + AttrText(Lookup(es, "$")) + "/>\n"
    ensures var x := NodeToXml(name, JObj(es), level);
      var open := Indent(level) + "<" + name + AttrText(Lookup(es, "$")) + ">\n";
      var close := Indent(level) + "</" + name + ">\n";
      !OnlyAttributes(es) ==> x == open + Children(WithoutKey(es, "$"), level + 1) + close
  {
    if OnlyAttributes(es) {
      SelfClosing(name, es, level);
    } else {
      Block(name, es, level);
    }
  }

  /** An object with no key but `$` is one self-closing element. */
  lemma SelfClosing(name: string, es: seq<Entry>, level: nat)
    requires OnlyAttributes(es)
    ensures NodeToXml(name, JObj(es), level) == Indent(level) + "<" + name + AttrText(Lookup(es, "$")) + "/>\n"
    ensures Element(NodeToXml(name, JObj(es), level), name, level)
  {
    ShapeOf(name, level, AttrText(Lookup(es, "$")) + "/");
  }

  /** Any other object is a block whose children skip `$`, and is not self-closing. */
  lemma Block(name: string, es: seq<Entry>, level: nat)
    requires !OnlyAttributes(es)
    ensures var x := NodeToXml(name, JObj(es), level);
      var open := Indent(level) + "<" + name + AttrText(Lookup(es, "$")) + ">\n";
      var close := Indent(level) + "</" + name + ">\n";
      && x == open + Children(WithoutKey(es, "$"), level + 1) + close
      && x != Indent(level) + "<" + name + AttrText(Lookup(es, "$")) + "/>\n"
      && Element(x, name, level)
  {
    BlockText(name, es, level);
    DollarIsNotAChild(es, level + 1);
    BlockShape(name, level, AttrText(Lookup(es, "$")), Children(es, level + 1));
  }

  /** The block form, split into its opening tag, its children and its closing tag. */
  lemma BlockText(name: string, es: seq<Entry>, level: nat)
    requires !OnlyAttributes(es)
    ensures NodeToXml(name, JObj(es), level)
      == (Indent(level) + "<" + name + AttrText(Lookup(es, "$")) + ">\n")
         + Children(es, level + 1)
         + (Indent(level) + "</" + name + ">\n")
  {
    var open := Indent(level) + "<" + name + AttrText(Lookup(es, "$")) + ">\n";
    var kids := Children(es, level + 1);
    var i := Indent(level);
    assert NodeToXml(name, JObj(es), level) == open + kids + i + "</" + name + ">\n";
    assert open + kids + i + "</" + name + ">\n" == open + kids + (i + "</" + name + ">\n");
  }

  /** A block element is an element, and never the self-closing one: it is longer. */
  lemma BlockShape(name: string, level: nat, attrText: string, kids: string)
    ensures var open := Indent(level) + "<" + name + attrText + ">\n";
      var close := Indent(level) + "</" + name + ">\n";
      && Element(open + kids + close, name, level)
      && open + kids + close != Indent(level) + "<" + name + attrText + "/>\n"
  {
    var open := Indent(level) + "<" + name + attrText + ">\n";
    var close := Indent(level) + "</" + name + ">\n";
    var short := Indent(level) + "<" + name + attrText + "/>\n";
    assert |open + kids + close| > |short| by {
      assert |open| + 1 == |short| && |close| >= 4;
    }
    ShapeOf(name, level, attrText + ">\n" + kids + Indent(level) + "</" + name);
    assert open + kids + close == Indent(level) + "<" + name + (attrText + ">\n" + kids + Indent(level) + "</" + name) + ">\n";
  }

  lemma ShapeOf(name: string, level: nat, mid: string)
    ensures Element(Indent(level) + "<" + name + mid + ">\n", name, level)
  {
    var open := Indent(level) + "<" + name;
    var x := open + mid + ">\n";
    assert x[..|open|] == open;
  }

  /**
   * `nodeToXml` in one statement: an array prints as its items' elements one
   * after the other, under the same name and at the same level; every other
   * value prints as one element of that name at that level.
   */
  lemma NodeToXmlShape(name: string, value: Json, level: nat)
    ensures value.JArr? ==>
      NodeToXml(name, value, level)
      == Concat(seq(|value.items|, i requires 0 <= i < |value.items| => NodeToXml(name, value.items[i], level)))
    ensures !value.JArr? ==> Element(NodeToXml(name, value, level), name, level)
  {
    if value.JArr? {
      RepeatIsSiblings(name, value.items, level);
    } else {
      ElementShape(name, value, level);
    }
  }

  /** An array of `n` objects, `null`s or scalars prints `n` sibling elements of the same name. */
  lemma {:induction false} RepeatIsSiblings(name: string, items: seq<Json>, level: nat)
    ensures Repeat(name, items, level) == Concat(seq(|items|, i requires 0 <= i < |items| => NodeToXml(name, items[i], level)))
    decreases |items|
  {
    var xs := seq(|items|, i requires 0 <= i < |items| => NodeToXml(name, items[i], level));
    if items != [] {
      RepeatIsSiblings(name, items[1..], level);
      assert xs[1..] == seq(|items| - 1, i requires 0 <= i < |items| - 1 => NodeToXml(name, items[1..][i], level));
    }
  }

  function Concat(xs: seq<string>): string {
    if xs == [] then "" else xs[0] + Concat(xs[1..])
  }

  /** The `$` entries of an object never print as children, wherever they stand. */
  lemma {:induction false} DollarIsNotAChild(es: seq<Entry>, level: nat)
    ensures Children(es, level) == Children(WithoutKey(es, "$"), level)
    decreases |es|
  {
    if es != [] {
      DollarIsNotAChild(es[1..], level);
    }
  }

  /** The entries whose key is not `k`, in order: `delete obj[k]` on an object with unique keys. */
  function WithoutKey(es: seq<Entry>, k: string): (r: seq<Entry>)
    ensures !HasKey(r, k)
    ensures forall j :: j != k ==> Lookup(r, j) == Lookup(es, j)
    ensures |r| <= |es|
  {
    if es == [] then []
    else if es[0].key == k then WithoutKey(es[1..], k)
    else [es[0]] + WithoutKey(es[1..], k)
  }

  // ---------------------------------------------------------------------
  // The root element
  // ---------------------------------------------------------------------

  /** `Object.keys(payload).forEach(k => root[k] = payload[k])`. */
  function AssignAll(root: seq<Entry>, payload: seq<Entry>): (r: seq<Entry>)
    decreases |payload|
  {
    if payload == [] then root
    else AssignAll(Update(root, payload[0].key, payload[0].value), payload[1..])
  }

  /** No key occurs twice, as in every object `JSON.parse` builds. */
  predicate DistinctKeys(es: seq<Entry>) {
    forall i, j :: 0 <= i < j < |es| ==> es[i].key != es[j].key
  }

  lemma HasKeyAppend(es: seq<Entry>, e: Entry, k: string)
    ensures HasKey(es + [e], k) <==> HasKey(es, k) || e.key == k
  {
    if HasKey(es + [e], k) && e.key != k {
      var m :| 0 <= m < |es + [e]| && (es + [e])[m].key == k;
      assert es[m].key == k;
    }
    if HasKey(es, k) {
      var m :| 0 <= m < |es| && es[m].key == k;
      assert (es + [e])[m].key == k;
    }
    if e.key == k {
      assert (es + [e])[|es|].key == k;
    }
  }

  /** Assigning keys none of which the target has yet appends them in order. */
  lemma {:induction false} AssignFresh(root: seq<Entry>, payload: seq<Entry>)
    requires DistinctKeys(payload)
    requires forall i :: 0 <= i < |payload| ==> !HasKey(root, payload[i].key)
    ensures AssignAll(root, payload) == root + payload
    decreases |payload|
  {
    if payload != [] {
      var e, rest := payload[0], payload[1..];
      assert AssignAll(root, payload) == AssignAll(root + [e], rest) by {
        assert !HasKey(root, e.key);
      }
      StillFresh(root, payload);
      AssignFresh(root + [e], rest);
      ConsAppend(root, payload);
    }
  }

  lemma ConsAppend<T>(a: seq<T>, b: seq<T>)
    requires |b| > 0
    ensures a + [b[0]] + b[1..] == a + b
  {
  }

  lemma StillFresh(root: seq<Entry>, payload: seq<Entry>)
    requires |payload| > 0 && DistinctKeys(payload)
    requires forall i :: 0 <= i < |payload| ==> !HasKey(root, payload[i].key)
    ensures forall i :: 0 <= i < |payload| - 1 ==> !HasKey(root + [payload[0]], payload[1..][i].key)
    ensures DistinctKeys(payload[1..])
  {
    forall i | 0 <= i < |payload| - 1
      ensures !HasKey(root + [payload[0]], payload[1..][i].key)
    {
      assert payload[1..][i] == payload[i + 1];
      HasKeyAppend(root, payload[0], payload[i + 1].key);
    }
  }

  /** The attribute object `{ versione }`. */
  function VersionAttrs(versione: Json): Json {
    JObj([Entry("versione", versione)])
  }

  /**
   * `root`: `$` set to `{ versione }` when the document's `@versione` is truthy,
   * then every other key of the spread document assigned on top. Reading
   * `@versione` from a `null` document throws.
   */
  function Root(doc: Json): (r: Result<Json, Fault>)
    ensures r.Failure? <==> doc == JNull
    ensures r.Success? ==> r.value.JObj?
  {
    var versione :- Read(Some(doc), "@versione");
    var payload := WithoutKey(OwnEntries(doc), "@versione");
    var start := if Truthy(versione) then [Entry("$", VersionAttrs(versione.value))] else [];
    Success(JObj(AssignAll(start, payload)))
  }

  /**
   * For an object document without a `$` key, the root is the document with
   * `@versione` moved into a leading `$` attribute block, or dropped when it
   * is falsy; every other key keeps its value and its order.
   */
  lemma RootHoistsVersion(es: seq<Entry>)
    requires DistinctKeys(es)
    requires !HasKey(es, "$")
    ensures var v := Lookup(es, "@versione");
      Root(JObj(es)) == Success(JObj(
        (if Truthy(v) then [Entry("$", VersionAttrs(v.value))] else []) + WithoutKey(es, "@versione")))
  {
    var v := Lookup(es, "@versione");
    var payload := WithoutKey(es, "@versione");
    var start := if Truthy(v) then [Entry("$", VersionAttrs(v.value))] else [];
    RootOfObject(es);
    SubsequenceDistinct(es, "@versione");
    forall i | 0 <= i < |payload| ensures !HasKey(start, payload[i].key) {
      assert payload[i] in payload;
      WithoutKeyFrom(es, "@versione", payload[i]);
    }
    AssignFresh(start, payload);
  }

  /**
   * Reading a key after `Object.keys(payload).forEach(k => root[k] = payload[k])`:
   * the payload's value when the payload has the key, the root's otherwise.
   */
  lemma {:induction false} AssignAllLookup(root: seq<Entry>, payload: seq<Entry>, k: string)
    requires DistinctKeys(payload)
    ensures Lookup(AssignAll(root, payload), k) == if HasKey(payload, k) then Lookup(payload, k) else Lookup(root, k)
    decreases |payload|
  {
    if payload != [] {
      var e, rest := payload[0], payload[1..];
      assert DistinctKeys(rest) by {
        forall i, j | 0 <= i < j < |rest| ensures rest[i].key != rest[j].key {
          assert rest[i] == payload[i + 1] && rest[j] == payload[j + 1];
        }
      }
      AssignAllLookup(Update(root, e.key, e.value), rest, k);
      if e.key == k {
        assert !HasKey(rest, k) by {
          forall i | 0 <= i < |rest| ensures rest[i].key != k {
            assert rest[i] == payload[i + 1];
          }
        }
      } else {
        HasKeyTail(payload, k);
      }
    }
  }

  /**
   * What the root reads at any key, for an object document with distinct
   * keys: `@versione` is gone; `$` is the document's own `$` when it has one,
   * since the assignment overwrites `{ versione }`, and otherwise
   * `{ versione }` when `@versione` is truthy; every other key reads as in
   * the document.
   */
  lemma RootLookup(es: seq<Entry>, k: string)
    requires DistinctKeys(es)
    ensures var v := Lookup(es, "@versione");
      Lookup(Root(JObj(es)).value.entries, k) ==
        if k == "@versione" then None
        else if k == "$" && !HasKey(es, "$") then (if Truthy(v) then Some(VersionAttrs(v.value)) else None)
        else Lookup(es, k)
  {
    var v := Lookup(es, "@versione");
    var payload := WithoutKey(es, "@versione");
    var start := if Truthy(v) then [Entry("$", VersionAttrs(v.value))] else [];
    RootOfObject(es);
    SubsequenceDistinct(es, "@versione");
    AssignAllLookup(start, payload, k);
    if k == "@versione" {
      assert !HasKey(start, k);
    } else {
      assert Lookup(payload, k) == Lookup(es, k);
    }
  }

  /** The root of an object document, before any assumption on its keys. */
  lemma RootOfObject(es: seq<Entry>)
    ensures var v := Lookup(es, "@versione");
      Root(JObj(es)) == Success(JObj(AssignAll(
        if Truthy(v) then [Entry("$", VersionAttrs(v.value))] else [], WithoutKey(es, "@versione"))))
  {
  }

  lemma {:induction false} WithoutKeyFrom(es: seq<Entry>, k: string, e: Entry)
    requires e in WithoutKey(es, k)
    ensures e in es
    decreases |es|
  {
    if es[0].key == k || e != es[0] {
      if es[0].key != k {
        assert e in WithoutKey(es[1..], k);
      }
      WithoutKeyFrom(es[1..], k, e);
    }
  }

  lemma {:induction false} SubsequenceDistinct(es: seq<Entry>, k: string)
    requires DistinctKeys(es)
    ensures DistinctKeys(WithoutKey(es, k))
    decreases |es|
  {
    if es != [] {
      SubsequenceDistinct(es[1..], k);
      if es[0].key != k {
        var rest := WithoutKey(es[1..], k);
        forall i | 0 <= i < |rest| ensures rest[i].key != es[0].key {
          assert rest[i] in rest;
          WithoutKeyFrom(es[1..], k, rest[i]);
        }
      }
    }
  }

  /** The tag of the document element. */
  const RootName: string := "FatturaElettronica"

  /**
   * `_jsonToPrettyXml`: the root element, trimmed, with one final newline.
   * Only a `null` document throws; every other document prints as exactly
   * its root element, which opens with `<FatturaElettronica` and ends with a
   * single newline.
   */
  function JsonToPrettyXml(doc: Json): (r: Result<string, Fault>)
    ensures r.Failure? <==> doc == JNull
    ensures r.Success? ==>
      && r.value == NodeToXml(RootName, Root(doc).value, 0)
      && StartsWith(r.value, "<" + RootName)
      && EndsWith(r.value, ">\n")
  {
    var root :- Root(doc);
    TrimIsIdentity(root);
    Success(Print(root))
  }

  /** The last line of `_jsonToPrettyXml`: the element for `root`, trimmed, and a newline. */
  function Print(root: Json): string {
    Trim(NodeToXml(RootName, root, 0)) + "\n"
  }

  /**
   * The trim and the appended newline cancel out: the printed document is
   * exactly the root element, which starts with `<FatturaElettronica` and
   * ends with a single newline.
   */
  lemma TrimIsIdentity(root: Json)
    requires root.JObj?
    ensures var x := NodeToXml(RootName, root, 0);
      && Print(root) == x
      && StartsWith(x, "<" + RootName)
      && EndsWith(x, ">\n")
  {
    var x := NodeToXml(RootName, root, 0);
    ElementShape(RootName, root, 0);
    assert Indent(0) + "<" + RootName == "<" + RootName;
    assert x[0] == x[..1 + |RootName|][0];
    TrimElement(x);
  }

  /** Trimming text that starts with `<` and ends with `>` and a newline drops just the newline. */
  lemma TrimElement(x: string)
    requires |x| >= 2 && x[0] == '<' && x[|x| - 2..] == ">\n"
    ensures Trim(x) + "\n" == x
  {
    var n := |x|;
    assert x[n - 2] == '>' && x[n - 1] == '\n';
    assert SkipSpaces(x, 0) == 0;
    assert EndOfText(x, 0, n - 1) == n - 1;
    assert EndOfText(x, 0, n) == n - 1;
    assert x[..n - 1] + "\n" == x;
  }
}
